=== FILE: README.md ===
# Seclytics client core in Dafny

This project models three parts of the Seclytics Python client.

- **IP category engine** (`BloomCategory`). Three Bloom filters
  (malicious, has-intel, predicted) classify an IPv4 address given as
  dotted-quad text or as a decimal integer string.
- **IOC intel accessors** (`Ioc`). These read a decoded JSON intel record:
  - who reported the indicator and whether it has threat intel;
  - the namespaced per-source values (categories, identifiers, reasons,
    source URLs);
  - the prediction flag and the minimum ranking;
  - the POST requests that feedback operations build.
- **Client helpers** (`Client`). These cover response-status
  classification, flattening list/set query parameters, and the local path
  a bulk or binary download is saved under.

Supporting modules:

| module | contents |
|---|---|
| `Wrappers` | `Option` and `Result` |
| `Decimal` | ASCII decimal text and `int`/`str` conversion |
| `Text` | `split`/`join`, `str.replace` on one character, `posixpath.basename`, `posixpath.join` |
| `Seqs` | turning a set into a duplicate-free list |
| `Ipv4` | address integers and dotted quads, i.e. `ipaddress.IPv4Address` |
| `Json` | decoded JSON values and the Python operations the accessors apply to them |

How side effects are represented:

- A Bloom filter is a value, `Filter(inserted, spurious)`. Membership is
  "inserted, or a false positive reported by `spurious`". Every general
  theorem about the category engine therefore holds for every
  false-positive pattern, and no inserted key is ever missed. The fixture
  lemmas are the exception: they use exact filters, which have no false
  positives.
- A Python exception is a `Failure` carrying the exception kind.
- An HTTP POST is a `Request` value: the path, the query parameters and
  the JSON body.

Three facts about the code shape the category engine:

- `check_ip` tests the predicted filter before the malicious one
  (seclytics/bloom_category.py:39-42), so an address in both comes out
  `Predicted`; `PredictedBeforeMalicious` states it.
- The constructor opens all three filters unconditionally
  (seclytics/bloom_category.py:24-27), so none of them is optional here.
- The test module calls `check_malicious` and `check_predicted`, which
  `BloomCategory` does not define; they are not modelled.

`record_threat_data` and `mark_as_good` pass their payload positionally
into the `params` slot of `_post_data`, so it travels as query parameters
and the request carries no JSON body. `RecordThreatData` and `MarkAsGood`
state exactly that.

## Model

| member | source | states |
|---|---|---|
| Decimal.Parse | seclytics/bloom_category.py:61 | `int(s)` on ASCII digit text: the value is below 10^len(s), and at least 10^(len(s)-1) when the text has no leading zero |
| Decimal.Show | seclytics/bloom_category.py:61 | `str(n)`: only digits, with no leading zero unless `n` is 0 |
| Decimal.ParseShow | seclytics/bloom_category.py:59-61 | reading back the decimal text of a number gives that number, so `int(str(n)) == n` for the integer form of an address |
| Decimal.ShowParse | seclytics/bloom_category.py:61 | writing out the number read from digit text without a leading zero gives that text back, so `str(int(s)) == s` for canonical text |
| Ipv4.ToOctets | seclytics/bloom_category.py:61 | an address below 2^32 splits into four bytes that assemble back, big-endian, to the same integer |
| Ipv4.OctetsOfAssemble | seclytics/bloom_category.py:61 | four bytes are recovered exactly from the integer they assemble to, so the split into octets is unique |
| Ipv4.Dotted | seclytics/bloom_category.py:61 | `str(IPv4Address(n))` contains a '.' and is never all digits, so `format_ip` leaves it alone on a second pass |
| Ipv4.DottedCanonical | seclytics/bloom_category.py:61 | `str(IPv4Address(n))` is exactly four '.'-separated decimal octets, each below 256 and without leading zeros, that assemble to `n` |
| Ipv4.DottedOfOctets | seclytics/bloom_category.py:61 | the dotted quad of the address with bytes a, b, c, d is `str(a).str(b).str(c).str(d)` |
| Ipv4.ParseDotted | seclytics/bloom_category.py:59-63 | any text it reads as four octets names an address below 2^32 and is not all digits, so `format_ip` passes it through unchanged |
| Ipv4.ParseDottedOfDotted | seclytics/bloom_category.py:61 | the dotted quad that `IPv4Address(n)` renders parses back to `n`, so the rendering loses nothing |
| Ipv4.DottedUnique | seclytics/bloom_category.py:61 | a dotted quad for `n` whose octets have no leading zeros is exactly `str(IPv4Address(n))`, so the filter key of an address is unique |
| BloomCategory.Contains | seclytics/portable_bloom.py:12-13 | a filter answers true for every key inserted into it, so there are no false negatives; false positives are arbitrary |
| BloomCategory.FormatIp | seclytics/bloom_category.py:47-63 | text that is not all digits is returned unchanged; digit text below 2^32 becomes exactly `str(IPv4Address(int(value)))`, which parses back to the same integer; larger digit text raises an address error carrying that value |
| BloomCategory.Classify | seclytics/bloom_category.py:38-45 | returns a tier that is requested and eligible (in has-intel and, for predicted/malicious, in that filter) of least precedence rank among eligible tiers; returns nothing only when no tier is eligible |
| BloomCategory.CheckIp | seclytics/bloom_category.py:29-45 | fails exactly when address normalisation fails; nothing is returned unless the normalised key is in has-intel; only requested tiers are returned; Predicted iff requested and in predicted; Malicious iff requested, in malicious and not reported as Predicted; Suspicious iff requested and neither of the others |
| BloomCategory.PredictedBeforeMalicious | seclytics/bloom_category.py:39-42 | an address in both the predicted and malicious filters, with both checks on, is reported Predicted |
| BloomCategory.EncodingIndependent | seclytics/bloom_category.py:59-61 | for every classifier and flag set, a decimal integer string is classified exactly as its dotted-quad form |
| BloomCategory.IntegerFormMatchesDotted | tests/test_bloom_category.py:68-73 | `str(int(IPv4Address(ip)))` is classified exactly like `ip`, for every address below 2^32 |
| BloomCategory.FormatIpIdempotent | seclytics/bloom_category.py:59-63 | normalising an already normalised value changes nothing |
| BloomCategory.DottedQuadUnchanged | seclytics/bloom_category.py:59-63 | any well-formed dotted quad is passed through verbatim |
| BloomCategory.LookedUpVerbatim | seclytics/bloom_category.py:59-63 | text whose second character is '.' is looked up under itself |
| BloomCategory.FixtureDotted | tests/test_bloom_category.py:9-66 | with exact filters built from the test fixtures, the stored addresses are classified: 2.2.2.2 and 4.4.4.4 Predicted (predicted wins over malicious for 2.2.2.2), 1.1.1.1 and 3.3.3.3 Malicious |
| BloomCategory.FixtureMalicious | tests/test_bloom_category.py:60-61 | with the fixture filters, 1.1.1.1 and 3.3.3.3 (in malicious, not in predicted) are reported Malicious |
| BloomCategory.FixturePredicted | tests/test_bloom_category.py:65-66 | with the fixture filters, 2.2.2.2 and 4.4.4.4 are reported Predicted, 2.2.2.2 although it is also in malicious |
| BloomCategory.FixtureMiss | tests/test_bloom_category.py:55 | with the fixture filters, a dotted address whose first octet is a single digit other than 1 to 4 gets no category |
| BloomCategory.FixtureUnknown | tests/test_bloom_category.py:55-57 | with the same filters, 8.8.8.8 and 0.0.34.184 (the key of "8888") get no category |
| BloomCategory.IntegerTextExample | tests/test_bloom_category.py:56-57 | "8888" is classified exactly like "0.0.34.184" by every classifier |
| BloomCategory.IntegerTextOfPredicted | tests/test_bloom_category.py:68-73 | "67372036" is classified exactly like "4.4.4.4" by every classifier |
| Json.In | seclytics/ioc/ioc.py:36 | `kind in context` succeeds exactly for a dict, a list or text and raises TypeError otherwise; for a dict it is key membership |
| Json.InSubstring | seclytics/ioc/ioc.py:36 | text with the kind anywhere inside it answers `kind in context` with true |
| Json.Index | seclytics/ioc/ioc.py:19 | `container[key]` succeeds exactly for a dict holding the key and yields its value; a dict without it raises KeyError |
| Json.Len | seclytics/ioc/ioc.py:83 | `len(v)` is defined exactly for text, lists and dicts, and is positive exactly when the value is truthy |
| Json.TextToInt | seclytics/ioc/ioc.py:137-138 | for ASCII text, `int(s)` succeeds exactly when the text stripped of ASCII whitespace is an optional sign followed by '_'-separated ASCII digit groups; otherwise ValueError (non-ASCII digits and whitespace: see below) |
| Json.ToIntOfRendered | seclytics/ioc/ioc.py:137-138 | for an integer `v`, `int('%s' % v) == int(v)`: its text converts back to the same number |
| Json.StripSurrounding | seclytics/ioc/ioc.py:137-138 | ASCII whitespace (space and '\t' through '\r', the ASCII characters `int()` skips) before and after a number does not change what `int()` reads |
| Json.SeparatorCharRejected | seclytics/ioc/ioc.py:137-138 | a control separator U+001C to U+001F in front of digits is not skipped: `int()` raises ValueError, although `str.strip()` would drop it |
| Json.SpacedDigits | seclytics/ioc/ioc.py:137-138 | a `min` of digits with a space before and a newline after converts to the number the digits spell, as `int(" 5\n") == 5` |
| Json.IntOfRendered | seclytics/ioc/ioc.py:137-138 | `int(str(i)) == i` for every integer, negative ones included |
| Json.SeparatorIgnored | seclytics/ioc/ioc.py:137-138 | for any two runs of digits, a single '_' between them does not change `int()`: `int("1_000") == int("1000")` |
| Json.DoubleSeparatorRejected | seclytics/ioc/ioc.py:137-138 | two '_' in a row between digits make `int()` raise ValueError, as for "1__0" |
| Json.LeadingSeparatorRejected | seclytics/ioc/ioc.py:137-138 | text starting with '_' makes `int()` raise ValueError, whatever follows |
| Json.Iterate | seclytics/ioc/ioc.py:37-39 | iterating a list yields exactly its elements and fails exactly when one cannot be hashed; a dict yields its keys; every yielded value is hashable |
| Json.Render | seclytics/ioc/ioc.py:151 | `'%s' % v` for text is the text itself; lists and dicts are not rendered (see below) |
| Ioc.ReportedBy | seclytics/ioc/ioc.py:11-20 | no context gives the empty set; otherwise the keys of `context['categories']`, with KeyError when `categories` is missing, TypeError when the context is not a dict, and AttributeError when `categories` is not a dict |
| Ioc.HasThreatIntel | seclytics/ioc/ioc.py:22-25 | true exactly when some source reported the indicator; fails exactly when `reported_by` fails |
| Ioc.Namespace | seclytics/ioc/ioc.py:32-36 | nothing when there is no context or the kind is not in it; otherwise `context[kind]`, which must be a dict |
| Ioc.UnionOfSources | seclytics/ioc/ioc.py:37-40 | succeeds exactly when every source's value is iterable into a set; the result has no duplicates and holds exactly the values some source lists |
| Ioc.NamespacedValues | seclytics/ioc/ioc.py:27-40 | empty without a context or without the kind in it; fails exactly in the cases Python raises; otherwise a duplicate-free list of exactly the values some source reports under the kind |
| Ioc.OneCategoryExample | tests/test_ioc.py:12-16 | one source reporting `category1` yields exactly `[category1]` |
| Ioc.Predicted | seclytics/ioc/ioc.py:70-83 | true exactly when predictions are present and non-empty; fails when predictions is a bool or an int, which `len` rejects |
| Ioc.MinRanking | seclytics/ioc/ioc.py:122-140 | nothing when rankings are absent or null; fails exactly when rankings is not a dict, or an entry that passes the filter is not a dict or has a truthy `min` that `int()` rejects (`int()` reads an integer as itself, a bool as 0 or 1 and text as in `Json.TextToInt`, and raises TypeError for None, lists and dicts); otherwise the least `min` among contributing lists (allowed, with a truthy min), and nothing only when none contributes |
| Ioc.IocPath | seclytics/ioc/ioc.py:151 | KeyError for a missing `type`, then for a missing `id`; otherwise `/<type>s/<id>` with both rendered as text; a list or dict type or id gives the `Unrendered` failure instead of Python's text |
| Ioc.PathSegments | seclytics/ioc/ioc.py:151 | for slash-free type and id the path has exactly three segments: empty, the plural type, and the id |
| Ioc.RecordThreatData | seclytics/ioc/ioc.py:143-152 | posts to the IOC path with classification `malicious`; category, reason and feed are present exactly when truthy and carry the given values; no other keys; no JSON body |
| Ioc.MarkAsGood | seclytics/ioc/ioc.py:154-161 | posts to the IOC path with classification `benign`; reason and feed are present exactly when truthy; no other keys; no JSON body |
| Seqs.SetToSeq | seclytics/ioc/ioc.py:40 | `list(values)` holds exactly the set's members, each once |
| Text.SplitJoin | seclytics/seclytics.py:66 | splitting a comma join of a non-empty list of comma-free parts gives back the parts (an empty list joins to "", which splits to `['']`) |
| Text.ReplaceChar | seclytics/seclytics.py:223 | `s.replace('/', '_')` keeps the length, changes exactly the '/' characters, and leaves no '/' behind |
| Text.Basename | seclytics/seclytics.py:225 | the basename has no '/', is a suffix of the path, and is the whole path or follows a '/' |
| Text.PathJoin | seclytics/seclytics.py:228 | an absolute second part replaces the first; otherwise the result is the first part followed by the second, with or without a '/' between |
| Text.PathJoinName | seclytics/seclytics.py:228 | joining a directory and a slash-free name ends in that name, preceded by the directory and a '/' exactly when one is needed |
| Client.CheckResponse | seclytics/seclytics.py:72-83 | no error iff 200; InvalidAccessToken iff 401; OverQuota iff 429; any other status gives an API error whose message is the response text, or "Non 200 Response" when the text is empty |
| Client.DownloadErrorExamples | tests/test_bulk_download.py:55-61 | a 401 response raises InvalidAccessToken, a 404 raises an API error, and a 200 raises nothing |
| Client.FlattenParam | seclytics/seclytics.py:64-66 | a list or set of texts becomes one comma-joined text (a set in some enumeration order); other values are untouched; a non-text member raises TypeError |
| Client.FlattenParams | seclytics/seclytics.py:64-66 | succeeds exactly when every parameter can be flattened; keeps the same keys, each flattened as above |
| Client.FlattenedListSplits | seclytics/seclytics.py:66 | a flattened non-empty list of comma-free texts splits back into the original list |
| Client.NewBulkDownload | seclytics/seclytics.py:206-218 | keeps the endpoint; the data directory is the given one when truthy and empty otherwise |
| Client.NoDataDirBareName | seclytics/seclytics.py:216-228 | without a data directory the file is saved under its bare file name, in the working directory |
| Client.BulkEndpoint | seclytics/seclytics.py:116 | the endpoint of a bulk file takes the bulk branch of `filename`, and its basename is that of the file's name |
| Client.BinaryEndpoint | seclytics/seclytics.py:121 | the endpoint of a binary misses the bulk branch, takes the download branch, and its stem's basename is that of the hash |
| Client.FileComponent | seclytics/seclytics.py:223-227 | the file name chosen for an endpoint never contains '/' |
| Client.Filename | seclytics/seclytics.py:220-228 | the download path's basename is the endpoint's file component and its prefix is the data directory, plus '/' when one is needed |
| Client.BulkApiDownloadPath | seclytics/seclytics.py:114-117 | a bulk file is saved as the data directory joined with the basename of its name |
| Client.BinaryDownloadPath | seclytics/seclytics.py:119-122 | a binary is saved as the data directory joined with the basename of its hash |
| Client.BinarySavedUnderHash | seclytics/seclytics.py:119-122 | a slash-free hash is saved under exactly its own name |
| Client.OtherEndpointFlattened | seclytics/seclytics.py:223 | an endpoint that is neither bulk nor download is saved with every '/' replaced by '_' |
| Client.BulkSubdirectoryFlattened | seclytics/seclytics.py:224-225 | a bulk file in a sub-directory is saved directly in the data directory under its own name |
| Client.BulkSavedUnderName | seclytics/seclytics.py:114-117 | a bulk file named without a directory is saved under exactly that name in the download directory |
| Client.TmpJoinName | seclytics/seclytics.py:228 | a relative name joined to the default "/tmp/" is appended as it is, with no extra '/' |
| Client.PublicDownloadExample | tests/test_bulk_download.py:42-43 | `test.json` with the default directory is saved as `/tmp/test.json` |
| Client.PrivateDownloadExample | tests/test_bulk_download.py:50-51 | `private/private_test.json` is saved as `/tmp/private_test.json` |

## Left out

- The opening of a filter file: `PortableBloom` raises when the file is missing and otherwise opens a `pybloomfilter` mmap. That is file I/O; a filter here is a value.
- The hash functions of `pybloomfilter`: the false-positive pattern is an arbitrary parameter of each filter, so every general theorem holds whatever it is (the fixture lemmas, which use exact filters, are the exception).
- The Python 2 branch of `format_ip`, and non-text input (an int passed to `check_ip`), which Python 3 passes through unchanged.
- `BloomCategory.FormatIp`: `str.isdigit` also accepts non-ASCII digits (superscripts, other scripts); the model reads ASCII '0'..'9' only.
- `BloomCategory.FormatIp`: from Python 3.7.14 on, `int()` refuses text of more than 4300 digits (a limit set by `sys.set_int_max_str_digits`), so `format_ip` raises ValueError there; the model has no digit limit and reports such a value as out of range.
- `BloomCategory.FixtureDotted`: the tests build filters with a 10% false-positive rate; the lemma uses exact filters, so it states the intended answers, not what every such filter returns.
- `BloomCategory.FixtureMalicious`: the same exact-filter simplification; a real filter could also report 1.1.1.1 or 3.3.3.3 as a false positive of the predicted filter, which would make them Predicted.
- `BloomCategory.FixturePredicted`: the same exact-filter simplification; it holds for any filters that contain the inserted keys, but it is stated only for the exact fixture filters.
- `BloomCategory.FixtureMiss`: the same exact-filter simplification; with a real filter such an address could be a false positive.
- `BloomCategory.FixtureUnknown`: the same exact-filter simplification; with a real filter 8.8.8.8 could be a false positive.
- `check_malicious` and `check_predicted`: the tests call them, but `BloomCategory` does not define them.
- `Ioc.__init__` takes a client and the intel record; the tests construct it with the record alone. Here the intel map is passed to each accessor.
- `Ioc.MinRanking`: `int()` also accepts non-ASCII decimal digits and non-ASCII whitespace (for example U+00A0); the model reads ASCII digits and ASCII whitespace only, so such a `min` fails here where Python converts it.
- `Ioc.MinRanking`: the 4300-digit limit of `int()` on text (Python 3.7.14 and later, configurable at run time) is not modelled; a longer `min` converts here where Python raises ValueError.
- `Json.TextToInt`: CPython maps non-ASCII decimal digits and Unicode whitespace to ASCII before parsing, so `int("\u00a05") == 5` and `int("\u0665") == 5`; the model reads only ASCII digits and ASCII whitespace and fails on such text.
- `Json.TextToInt`: the same 4300-digit limit is not modelled, because it depends on the interpreter version and on a run-time setting.
- `Ioc.IocPath`: a list or dict `type` or `id` is formatted by Python's `str()` (its repr, with quoting rules of its own); the model stops with `Unrendered` instead.
- The network calls: `_get_request` (URL concatenation and the GET itself), `_post_data`, `BulkDownload.api_reponse` and the file writing in `download`. The model keeps only the pure decisions they make.
- `passive_dns`, `whitelist`, `rankings` and `predictions` return the value under one key of the report, or None when it is absent; `ioc_type` and `ioc_id` index `type` and `id` directly and raise KeyError when they are missing. `ioc_type`, `ioc_id`, `rankings` and `predictions` are read inside `IocPath` (with that KeyError), `MinRanking` and `Predicted`; `passive_dns` and `whitelist` are not used by anything modelled and have no member.
- `predicted_at` and `first_reported_at`: date parsing is outside the core.
- `hashed_urls`, `mount_ioc_lookups`, the dynamically mounted lookup methods, `Node`, the `Ioc` subclasses and the command-line scripts: these are outside the modelled core.
- JSON floating-point numbers, and Python's `True == 1` hash equality inside sets.
- `Json.Render`: a list or dict is not rendered; the only values the model renders are scalars, and containers give `Unrendered`.
- `Client.FlattenParam`: the order in which Python enumerates a set is unspecified, so the contract says the joined text follows SOME enumeration without naming which.

=== FILE: bloom_category.dfy ===
/** The IP category engine: three membership filters (`has_intel`,
    `predicted`, `malicious`) and the gate-then-tiers decision that turns an
    address into a category, or into no category at all. */
module BloomCategory {
  import opened Wrappers
  import Decimal
  import Ipv4

  /** The three categories; "no category" is `None`, never a fourth value. */
  datatype Category = Malicious | Predicted | Suspicious

  /** A Bloom filter as `contains` sees it: every key inserted when the
      filter was built, plus the keys that happen to collide with them. */
  datatype Filter = Filter(inserted: set<string>, spurious: string -> bool)

  /** `filter.contains(key)`: may report a key that was never inserted,
      never misses one that was. */
  function Contains(f: Filter, key: string): (b: bool)
    ensures key in f.inserted ==> b
  {
    key in f.inserted || f.spurious(key)
  }

  /** A filter holding exactly the given keys, with no false positives. */
  function Exact(keys: set<string>): (f: Filter)
    ensures forall key :: Contains(f, key) <==> key in keys
  {
    Filter(keys, _ => false)
  }

  /** The engine: all three filters are given at construction. */
  datatype Classifier = Classifier(malicious: Filter, hasIntel: Filter, predicted: Filter)

  /** The caller's `check_suspicious`, `check_predicted` and `check_malicious` flags. */
  datatype Checks = Checks(suspicious: bool, predicted: bool, malicious: bool)

  /** The defaults of `check_ip`: every tier is wanted. */
  const AllChecks := Checks(true, true, true)

  /** `ipaddress` refuses an integer outside the 32-bit range. */
  datatype AddressError = AddressOutOfRange(value: nat)

  /** `format_ip`: text made only of ASCII digits is read as a 32-bit address
      integer and rendered as dotted-quad text; any other text is returned
      as it is. */
  function FormatIp(value: string): (r: Result<string, AddressError>)
    ensures !Decimal.IsDigits(value) ==> r == Success(value)
    ensures Decimal.IsDigits(value) ==>
              (r.Success? <==> Decimal.Parse(value) < Ipv4.AddressSpace)
    ensures Decimal.IsDigits(value) && r.Success? ==> r.value == Ipv4.Dotted(Decimal.Parse(value))
    ensures Decimal.IsDigits(value) && r.Success? ==>
              Ipv4.ParseDotted(r.value) == Some(Decimal.Parse(value)) && '.' in r.value
    ensures r.Failure? ==> r.error == AddressOutOfRange(Decimal.Parse(value))
  {
    if Decimal.IsDigits(value) then
      var n := Decimal.Parse(value);
      if n < Ipv4.AddressSpace then
        Ipv4.ParseDottedOfDotted(n);
        Success(Ipv4.Dotted(n))
      else
        Failure(AddressOutOfRange(n))
    else
      Success(value)
  }

  /** Precedence as coded: the predicted tier is tried first, then
      malicious, then suspicious. A lower rank wins. */
  function Rank(t: Category): nat {
    match t
    case Predicted => 0
    case Malicious => 1
    case Suspicious => 2
  }

  /** Whether the caller asked for tier `t`. */
  predicate Requested(checks: Checks, t: Category) {
    match t
    case Predicted => checks.predicted
    case Malicious => checks.malicious
    case Suspicious => checks.suspicious
  }

  /** Whether tier `t`'s own filter reports the key (suspicious has none). */
  predicate TierHit(c: Classifier, key: string, t: Category) {
    match t
    case Predicted => Contains(c.predicted, key)
    case Malicious => Contains(c.malicious, key)
    case Suspicious => true
  }

  /** Tier `t` is a possible answer: the gate passes, the caller asked for
      `t`, and `t`'s filter reports the key. */
  predicate Eligible(c: Classifier, key: string, checks: Checks, t: Category) {
    Contains(c.hasIntel, key) && Requested(checks, t) && TierHit(c, key, t)
  }

  /** The decision on a normalised key: the eligible tier of best rank, or
      `None` when no tier is eligible. */
  function Classify(c: Classifier, key: string, checks: Checks): (r: Option<Category>)
    ensures r.Some? ==> Eligible(c, key, checks, r.value)
    ensures r.Some? ==> forall t :: Eligible(c, key, checks, t) ==> Rank(r.value) <= Rank(t)
    ensures r.None? ==> forall t :: !Eligible(c, key, checks, t)
  {
    if Contains(c.hasIntel, key) then
      if checks.predicted && Contains(c.predicted, key) then Some(Predicted)
      else if checks.malicious && Contains(c.malicious, key) then Some(Malicious)
      else if checks.suspicious then Some(Suspicious)
      else None
    else None
  }

  /** `check_ip`: normalise the address with `FormatIp`, then decide. */
  function CheckIp(c: Classifier, ip: string, checks: Checks): (r: Result<Option<Category>, AddressError>)
    ensures r.Failure? <==> FormatIp(ip).Failure?
    ensures r.Failure? ==> r.error == FormatIp(ip).error
    // the gate: without a has_intel hit nothing else matters
    ensures r.Success? && !Contains(c.hasIntel, FormatIp(ip).value) ==> r.value == None
    // flag respect: a tier the caller did not ask for is never returned
    ensures r.Success? && r.value.Some? ==> Requested(checks, r.value.value)
    ensures r.Success? && !checks.suspicious && !checks.predicted && !checks.malicious ==> r.value == None
    // the tiers, each exactly characterised
    ensures r.Success? ==>
              var key := FormatIp(ip).value;
              (r.value == Some(Predicted) <==>
                 Contains(c.hasIntel, key) && checks.predicted && Contains(c.predicted, key))
    ensures r.Success? ==>
              var key := FormatIp(ip).value;
              (r.value == Some(Malicious) <==>
                 Contains(c.hasIntel, key) && checks.malicious && Contains(c.malicious, key)
                 && !(checks.predicted && Contains(c.predicted, key)))
    ensures r.Success? ==>
              var key := FormatIp(ip).value;
              (r.value == Some(Suspicious) <==>
                 Contains(c.hasIntel, key) && checks.suspicious
                 && !(checks.predicted && Contains(c.predicted, key))
                 && !(checks.malicious && Contains(c.malicious, key)))
  {
    match FormatIp(ip)
    case Failure(e) => Failure(e)
    case Success(key) =>
      var r := Classify(c, key, checks);
      assert Eligible(c, key, checks, Predicted) ==> r == Some(Predicted) by {
        if Eligible(c, key, checks, Predicted) {
          assert Rank(r.value) <= Rank(Predicted);
        }
      }
      assert Eligible(c, key, checks, Malicious) ==> r == Some(Malicious) || r == Some(Predicted) by {
        if Eligible(c, key, checks, Malicious) {
          assert Rank(r.value) <= Rank(Malicious);
        }
      }
      assert Eligible(c, key, checks, Suspicious) ==> r.Some? by {
        if Eligible(c, key, checks, Suspicious) {
          assert Rank(r.value) <= Rank(Suspicious);
        }
      }
      Success(r)
  }

  /** Precedence as coded: a key in both `predicted` and `malicious` is
      reported as predicted when both tiers are wanted. */
  lemma PredictedBeforeMalicious(c: Classifier, ip: string, checks: Checks)
    requires FormatIp(ip).Success?
    requires var key := FormatIp(ip).value;
             Contains(c.hasIntel, key) && Contains(c.predicted, key) && Contains(c.malicious, key)
    requires checks.predicted && checks.malicious
    ensures CheckIp(c, ip, checks) == Success(Some(Predicted))
  {
  }

  /** The integer text of an address and its dotted-quad text are looked up
      under the same key, so they get the same answer. Leading zeros in the
      integer text make no difference either. */
  lemma EncodingIndependent(c: Classifier, digits: string, checks: Checks)
    requires Decimal.IsDigits(digits) && Decimal.Parse(digits) < Ipv4.AddressSpace
    ensures CheckIp(c, digits, checks) == CheckIp(c, Ipv4.Dotted(Decimal.Parse(digits)), checks)
  {
  }

  /** `check_ip(str(n)) == check_ip(str(IPv4Address(n)))` for every address integer. */
  lemma IntegerFormMatchesDotted(c: Classifier, n: nat, checks: Checks)
    requires n < Ipv4.AddressSpace
    ensures CheckIp(c, Decimal.Show(n), checks) == CheckIp(c, Ipv4.Dotted(n), checks)
  {
    Decimal.ParseShow(n);
    EncodingIndependent(c, Decimal.Show(n), checks);
  }

  /** Normalising twice is normalising once. */
  lemma FormatIpIdempotent(value: string)
    requires FormatIp(value).Success?
    ensures FormatIp(FormatIp(value).value) == FormatIp(value)
  {
  }

  /** Well-formed dotted-quad text is already normalised. */
  lemma DottedQuadUnchanged(value: string)
    requires Ipv4.ParseDotted(value).Some?
    ensures FormatIp(value) == Success(value)
  {
  }

  /** The classifier of the repository's test fixture, with exact filters. */
  function FixtureClassifier(): Classifier {
    Classifier(
      malicious := Exact({"1.1.1.1", "2.2.2.2", "3.3.3.3"}),
      hasIntel := Exact({"1.1.1.1", "2.2.2.2", "3.3.3.3", "4.4.4.4"}),
      predicted := Exact({"2.2.2.2", "4.4.4.4"}))
  }

  /** Text whose second character is '.' is looked up as it is. */
  lemma LookedUpVerbatim(c: Classifier, ip: string, checks: Checks)
    requires |ip| > 1 && ip[1] == '.'
    ensures CheckIp(c, ip, checks) == Success(Classify(c, ip, checks))
  {
    assert !Decimal.IsDigit(ip[1]);
  }

  /** The fixture's dotted-quad expectations: every stored address gets a
      category, with predicted winning over malicious. */
  lemma FixtureDotted()
    ensures CheckIp(FixtureClassifier(), "1.1.1.1", AllChecks) == Success(Some(Malicious))
    ensures CheckIp(FixtureClassifier(), "2.2.2.2", AllChecks) == Success(Some(Predicted))
    ensures CheckIp(FixtureClassifier(), "3.3.3.3", AllChecks) == Success(Some(Malicious))
    ensures CheckIp(FixtureClassifier(), "4.4.4.4", AllChecks) == Success(Some(Predicted))
  {
    FixtureMalicious("1.1.1.1");
    FixturePredicted("2.2.2.2");
    FixtureMalicious("3.3.3.3");
    FixturePredicted("4.4.4.4");
  }

  /** An address the fixture does not store gets no category, whether
      written as 8.8.8.8 or as the dotted form of the integer 8888. */
  lemma FixtureUnknown()
    ensures CheckIp(FixtureClassifier(), "8.8.8.8", AllChecks) == Success(None)
    ensures CheckIp(FixtureClassifier(), "0.0.34.184", AllChecks) == Success(None)
  {
    FixtureMiss("8.8.8.8");
    FixtureMiss("0.0.34.184");
  }

  /** The fixture's malicious-only addresses are reported Malicious. */
  lemma FixtureMalicious(ip: string)
    requires ip == "1.1.1.1" || ip == "3.3.3.3"
    ensures CheckIp(FixtureClassifier(), ip, AllChecks) == Success(Some(Malicious))
  {
    LookedUpVerbatim(FixtureClassifier(), ip, AllChecks);
    assert ip[0] == '1' || ip[0] == '3';
    assert "2.2.2.2"[0] == '2' && "4.4.4.4"[0] == '4';
  }

  /** The fixture's predicted addresses are reported Predicted. */
  lemma FixturePredicted(ip: string)
    requires ip == "2.2.2.2" || ip == "4.4.4.4"
    ensures CheckIp(FixtureClassifier(), ip, AllChecks) == Success(Some(Predicted))
  {
    LookedUpVerbatim(FixtureClassifier(), ip, AllChecks);
  }

  /** A dotted address whose first digit is not 1 to 4 is unknown to the fixture. */
  lemma FixtureMiss(ip: string)
    requires |ip| > 1 && ip[1] == '.' && !('1' <= ip[0] <= '4')
    ensures CheckIp(FixtureClassifier(), ip, AllChecks) == Success(None)
  {
    LookedUpVerbatim(FixtureClassifier(), ip, AllChecks);
    assert "1.1.1.1"[0] == '1' && "2.2.2.2"[0] == '2' && "3.3.3.3"[0] == '3' && "4.4.4.4"[0] == '4';
  }

  /** The integer text "8888" is looked up under the key "0.0.34.184". */
  lemma IntegerTextExample(c: Classifier, checks: Checks)
    ensures CheckIp(c, "8888", checks) == CheckIp(c, "0.0.34.184", checks)
  {
    IntegerFormMatchesDotted(c, 8888, checks);
    ShowOf8888();
    DottedOf8888();
  }

  lemma ShowOf8888()
    ensures Decimal.Show(8888) == "8888"
  {
    assert Decimal.Show(88) == "88";
    assert Decimal.Show(888) == "888";
  }

  lemma DottedOf8888()
    ensures Ipv4.Dotted(8888) == "0.0.34.184"
  {
    assert Ipv4.ToOctets(8888) == Ipv4.Octets(0, 0, 34, 184);
    ShowOfOctets8888();
  }

  lemma ShowOfOctets8888()
    ensures Decimal.Show(0) == "0" && Decimal.Show(34) == "34" && Decimal.Show(184) == "184"
  {
    assert Decimal.Show(18) == "18";
  }

  /** The integer text of 4.4.4.4 is looked up under the key "4.4.4.4". */
  lemma IntegerTextOfPredicted(c: Classifier, checks: Checks)
    ensures CheckIp(c, "67372036", checks) == CheckIp(c, "4.4.4.4", checks)
  {
    var n := 67372036;
    IntegerFormMatchesDotted(c, n, checks);
    ShowOfFourFours();
    DottedOfFourFours();
  }

  lemma ShowOfFourFours()
    ensures Decimal.Show(67372036) == "67372036"
  {
    assert Decimal.Show(67) == "67";
    assert Decimal.Show(673) == "673";
    assert Decimal.Show(6737) == "6737";
    assert Decimal.Show(67372) == "67372";
    assert Decimal.Show(673720) == "673720";
    assert Decimal.Show(6737203) == "6737203";
  }

  lemma DottedOfFourFours()
    ensures Ipv4.Dotted(67372036) == "4.4.4.4"
  {
    assert Ipv4.ToOctets(67372036) == Ipv4.Octets(4, 4, 4, 4);
    assert Decimal.Show(4) == "4";
  }
}

=== FILE: client.dfy ===
/** The API client's pure parts: mapping a response to the exception it
    raises, flattening list and set query parameters, the bulk and binary
    download endpoints, and the file a download is written to. */
module Client {
  import opened Wrappers
  import opened Json
  import opened Seqs
  import Text

  /** The exceptions a response can raise. */
  datatype ApiException = InvalidAccessToken | OverQuota | ApiError(message: string)

  /** The message of an `ApiError` whose response has no text. */
  const NoTextMessage := "Non 200 Response"

  /** `_check_response_for_errors`: the exception a response with this status
      and body text raises, `None` when it raises nothing. */
  function CheckResponse(status: int, text: string): (r: Option<ApiException>)
    ensures r.None? <==> status == 200
    ensures r == Some(InvalidAccessToken) <==> status == 401
    ensures r == Some(OverQuota) <==> status == 429
    ensures status != 200 && status != 401 && status != 429 ==> r.Some? && r.value.ApiError?
    ensures r.Some? && r.value.ApiError? ==>
              r.value.message != "" && (text != "" ==> r.value.message == text)
    ensures r.Some? && r.value.ApiError? && text == "" ==> r.value.message == NoTextMessage
  {
    if status == 401 then Some(InvalidAccessToken)
    else if status == 429 then Some(OverQuota)
    else if status != 200 then Some(ApiError(if text != "" then text else NoTextMessage))
    else None
  }

  /** The repository's download tests: 401 is a bad token, 404 a general error. */
  lemma DownloadErrorExamples(text: string)
    ensures CheckResponse(401, text) == Some(InvalidAccessToken)
    ensures CheckResponse(404, text).Some? && CheckResponse(404, text).value.ApiError?
    ensures CheckResponse(200, text).None?
  {
  }

  /** A query parameter value: a JSON-like value (a Python list is a
      `List`), or a Python set of values. */
  datatype Param = Plain(v: Value) | SetOf(members: set<Value>)

  /** Every item is text, as `','.join` demands. */
  predicate AllText(items: seq<Value>) {
    forall i :: 0 <= i < |items| ==> items[i].Str?
  }

  function Texts(items: seq<Value>): (r: seq<string>)
    requires AllText(items)
    ensures |r| == |items|
    ensures forall i :: 0 <= i < |items| ==> items[i] == Str(r[i])
  {
    seq(|items|, i requires 0 <= i < |items| => items[i].s)
  }

  /** `q` lists the set `s`, each element once. */
  ghost predicate Enumerates(q: seq<Value>, s: set<Value>) {
    NoDuplicates(q) && forall x :: x in q <==> x in s
  }

  /** The parameter can be flattened without raising. */
  predicate Joinable(p: Param) {
    match p
    case Plain(v) => v.List? ==> AllText(v.items)
    case SetOf(members) => forall x :: x in members ==> x.Str?
  }

  /** `after` is what the flattening loop stores for `before`: lists become
      their items joined by ',' in order, sets their items joined by ',' in
      some order, and every other value stays as it is. */
  ghost predicate Flattened(before: Param, after: Param) {
    match before
    case Plain(v) =>
      if v.List? then AllText(v.items) && after == Plain(Str(Text.Join(Texts(v.items), ',')))
      else after == before
    case SetOf(members) =>
      exists q :: Enumerates(q, members) && AllText(q) && after == Plain(Str(Text.Join(Texts(q), ',')))
  }

  /** Flattens one parameter value. */
  method FlattenParam(p: Param) returns (r: Result<Param, PyError>)
    ensures r.Success? <==> Joinable(p)
    ensures r.Success? ==> Flattened(p, r.value)
    ensures r.Failure? ==> r.error == TypeError
  {
    match p
    case Plain(v) =>
      if v.List? {
        if AllText(v.items) {
          r := Success(Plain(Str(Text.Join(Texts(v.items), ','))));
        } else {
          r := Failure(TypeError);
        }
      } else {
        r := Success(p);
      }
    case SetOf(members) =>
      if forall x :: x in members ==> x.Str? {
        var q := SetToSeq(members);
        assert AllText(q) by {
          forall i | 0 <= i < |q|
            ensures q[i].Str?
          {
            assert q[i] in q;
          }
        }
        r := Success(Plain(Str(Text.Join(Texts(q), ','))));
        assert Enumerates(q, members);
      } else {
        r := Failure(TypeError);
      }
  }

  /** The parameter loop of `_get_request`: every list or set value is
      replaced by its ','-joined text; the keys and all other values stay. */
  method FlattenParams(params: map<string, Param>) returns (r: Result<map<string, Param>, PyError>)
    ensures r.Success? <==> forall k :: k in params ==> Joinable(params[k])
    ensures r.Success? ==> r.value.Keys == params.Keys
    ensures r.Success? ==> forall k :: k in params ==> Flattened(params[k], r.value[k])
  {
    var result := params;
    var pending := params.Keys;
    while pending != {}
      invariant pending <= params.Keys
      invariant result.Keys == params.Keys
      invariant forall k :: k in params && k !in pending ==> Joinable(params[k])
      invariant forall k :: k in params && k !in pending ==> Flattened(params[k], result[k])
      decreases pending
    {
      var k :| k in pending;
      var flat := FlattenParam(params[k]);
      if flat.Failure? {
        return Failure(flat.error);
      }
      result := result[k := flat.value];
      pending := pending - {k};
    }
    return Success(result);
  }

  /** A flattened list of ','-free texts splits back into the list. */
  lemma FlattenedListSplits(items: seq<string>, after: Param)
    requires |items| > 0 && forall i :: 0 <= i < |items| ==> ',' !in items[i]
    requires Flattened(Plain(List(seq(|items|, i requires 0 <= i < |items| => Str(items[i])))), after)
    ensures after.Plain? && after.v.Str?
    ensures Text.Split(after.v.s, ',') == items
  {
    var values := seq(|items|, i requires 0 <= i < |items| => Str(items[i]));
    assert Texts(values) == items;
    Text.SplitJoin(items, ',');
  }

  /** A download: the API endpoint and the directory the file goes to. */
  datatype BulkDownload = BulkDownload(endpoint: string, dataDir: string)

  /** The default target directory of `bulk_api_download` and `binary_download`. */
  const DefaultDataDir := "/tmp/"

  /** `BulkDownload(api, endpoint, data_dir)`: a missing or empty directory becomes "". */
  function NewBulkDownload(endpoint: string, dataDir: Option<string>): (b: BulkDownload)
    ensures b.endpoint == endpoint
    ensures dataDir.None? ==> b.dataDir == ""
    ensures dataDir.Some? ==> b.dataDir == dataDir.value
  {
    BulkDownload(endpoint, if dataDir.Some? && dataDir.value != "" then dataDir.value else "")
  }

  /** The endpoint `bulk_api_download(name)` fetches: a bulk endpoint whose
      basename is that of `name`. */
  function BulkEndpoint(name: string): (e: string)
    ensures Text.StartsWith(e, "/bulk")
    ensures Text.Basename(e) == Text.Basename(name)
  {
    var e := "/bulk" + "/" + name;
    assert e[..5] == "/bulk";
    Text.BasenameAfterSlash("/bulk", name);
    e
  }

  /** The endpoint `binary_download(file_hash)` fetches: not a bulk
      endpoint, and a download endpoint whose stem has the basename of
      `file_hash`. */
  function BinaryEndpoint(fileHash: string): (e: string)
    ensures !Text.StartsWith(e, "/bulk")
    ensures Text.EndsWith(e, "/download")
    ensures Text.Basename(e[..|e| - 9]) == Text.Basename(fileHash)
  {
    var stem := "/files" + "/" + fileHash;
    var e := stem + "/download";
    assert e[..|e| - 9] == stem && e[|e| - 9..] == "/download";
    assert !Text.StartsWith(e, "/bulk") by {
      assert e[1] == 'f';
    }
    Text.BasenameAfterSlash("/files", fileHash);
    e
  }

  /** The file name part of `filename`: the endpoint's basename for a bulk
      endpoint, the basename before "/download" for a download endpoint,
      and otherwise the endpoint with every '/' replaced by '_'. */
  function FileComponent(endpoint: string): (f: string)
    ensures '/' !in f
  {
    if Text.StartsWith(endpoint, "/bulk") then Text.Basename(endpoint)
    else if Text.EndsWith(endpoint, "/download") then Text.Basename(endpoint[..|endpoint| - 9])
    else Text.ReplaceChar(endpoint, '/', '_')
  }

  /** `filename`: the file lies directly in the download directory, and its
      basename is the endpoint's file component. */
  function Filename(b: BulkDownload): (path: string)
    ensures Text.Basename(path) == FileComponent(b.endpoint)
    ensures path[..|path| - |FileComponent(b.endpoint)|] ==
              (if b.dataDir == "" || Text.EndsWith(b.dataDir, "/") then b.dataDir else b.dataDir + "/")
  {
    Text.PathJoinName(b.dataDir, FileComponent(b.endpoint));
    Text.PathJoin(b.dataDir, FileComponent(b.endpoint))
  }

  /** The path `bulk_api_download(name, data_dir)` writes to and returns. */
  function BulkApiDownloadPath(name: string, dataDir: Option<string>): (path: string)
    ensures path == Text.PathJoin(NewBulkDownload("", dataDir).dataDir, Text.Basename(name))
  {
    Filename(NewBulkDownload(BulkEndpoint(name), dataDir))
  }

  /** The path `binary_download(file_hash, data_dir)` writes to and returns. */
  function BinaryDownloadPath(fileHash: string, dataDir: Option<string>): (path: string)
    ensures path == Text.PathJoin(NewBulkDownload("", dataDir).dataDir, Text.Basename(fileHash))
  {
    Filename(NewBulkDownload(BinaryEndpoint(fileHash), dataDir))
  }

  /** A sample is saved under its hash, directly in the download directory. */
  lemma BinarySavedUnderHash(fileHash: string, dataDir: Option<string>)
    requires '/' !in fileHash
    ensures BinaryDownloadPath(fileHash, dataDir) == Text.PathJoin(NewBulkDownload("", dataDir).dataDir, fileHash)
  {
    Text.BasenameOfName(fileHash);
  }

  /** Any other endpoint is flattened into one name by replacing '/' with '_'. */
  lemma OtherEndpointFlattened(endpoint: string, dataDir: string)
    requires !Text.StartsWith(endpoint, "/bulk") && !Text.EndsWith(endpoint, "/download")
    ensures Filename(BulkDownload(endpoint, dataDir))
            == Text.PathJoin(dataDir, Text.ReplaceChar(endpoint, '/', '_'))
  {
  }

  /** The repository's download test: "test.json" lands in "/tmp/". */
  lemma PublicDownloadExample()
    ensures BulkApiDownloadPath("test.json", Some(DefaultDataDir)) == "/tmp/test.json"
  {
    var name := "test.json";
    assert DefaultDataDir + name == "/tmp/test.json";
    assert '/' !in name && name[0] == 't' by {
      assert name == ['t', 'e', 's', 't', '.', 'j', 's', 'o', 'n'];
    }
    BulkSavedUnderName(name, DefaultDataDir);
    TmpJoinName(name);
  }

  /** A bulk file named without a directory is saved under that name. */
  lemma BulkSavedUnderName(name: string, dataDir: string)
    requires '/' !in name
    ensures BulkApiDownloadPath(name, Some(dataDir)) == Text.PathJoin(NewBulkDownload("", Some(dataDir)).dataDir, name)
  {
    Text.BasenameOfName(name);
  }

  /** A relative name is appended to the default directory as it is. */
  lemma TmpJoinName(file: string)
    requires |file| > 0 && file[0] != '/'
    ensures Text.PathJoin(DefaultDataDir, file) == DefaultDataDir + file
  {
    assert Text.EndsWith(DefaultDataDir, "/");
  }

  /** A bulk file under a sub-directory lands directly in the download
      directory, without the sub-directory. */
  lemma BulkSubdirectoryFlattened(subdir: string, file: string, dataDir: string)
    requires '/' !in file
    ensures BulkApiDownloadPath(subdir + "/" + file, Some(dataDir))
            == Text.PathJoin(NewBulkDownload("", Some(dataDir)).dataDir, file)
  {
    Text.BasenameAfterSlash(subdir, file);
    Text.BasenameOfName(file);
  }

  /** The repository's download test: a private file lands in "/tmp/" too,
      without its "private/" directory. */
  lemma PrivateDownloadExample()
    ensures BulkApiDownloadPath("private/private_test.json", Some(DefaultDataDir)) == "/tmp/private_test.json"
  {
    var file := "private_test.json";
    assert DefaultDataDir + file == "/tmp/private_test.json";
    assert "private/private_test.json" == "private" + "/" + file;
    assert '/' !in file && file[0] == 'p' by {
      assert file == ['p', 'r', 'i', 'v', 'a', 't', 'e', '_', 't', 'e', 's', 't', '.', 'j', 's', 'o', 'n'];
    }
    BulkSubdirectoryFlattened("private", file, DefaultDataDir);
    TmpJoinName(file);
  }

  /** With no download directory the file is saved under its bare name,
      relative to the working directory. */
  lemma NoDataDirBareName(endpoint: string)
    ensures Filename(NewBulkDownload(endpoint, None)) == FileComponent(endpoint)
  {
    var f := FileComponent(endpoint);
    assert !Text.StartsWith(f, "/") by {
      if |f| > 0 {
        assert f[0] in f;
      }
    }
  }
}

=== FILE: decimal.dfy ===
/** Base-10 text: Python's `str.isdigit()` (ASCII digits only), `int(s)` on such
    text, and `str(n)` for a natural number. */
module Decimal {

  predicate IsDigit(c: char) {
    '0' <= c <= '9'
  }

  /** `s.isdigit()` for ASCII text: non-empty, and every character a digit. */
  predicate IsDigits(s: string) {
    |s| > 0 && forall i :: 0 <= i < |s| ==> IsDigit(s[i])
  }

  function DigitValue(c: char): (d: nat)
    requires IsDigit(c)
    ensures d < 10
  {
    c as int - '0' as int
  }

  function DigitChar(d: nat): (c: char)
    requires d < 10
    ensures IsDigit(c) && DigitValue(c) == d
  {
    ('0' as int + d) as char
  }

  function Pow10(k: nat): (p: nat)
    ensures p >= 1
  {
    if k == 0 then 1 else 10 * Pow10(k - 1)
  }

  /** `int(s)` for a string of ASCII digits; leading zeros are allowed. The
      value has at most `|s|` digits, and exactly `|s|` when `s` does not
      start with '0'. */
  function Parse(s: string): (n: nat)
    requires forall i :: 0 <= i < |s| ==> IsDigit(s[i])
    ensures n < Pow10(|s|)
    ensures |s| > 0 && s[0] != '0' ==> Pow10(|s| - 1) <= n
    decreases |s|
  {
    if |s| == 0 then 0 else Parse(s[..|s| - 1]) * 10 + DigitValue(s[|s| - 1])
  }

  /** Text `str(n)` can produce: digits, and no leading zero unless it is "0". */
  predicate Canonical(s: string) {
    IsDigits(s) && (s[0] == '0' ==> s == "0")
  }

  /** `str(n)`: canonical decimal text, digits only, no leading zero. */
  function Show(n: nat): (r: string)
    ensures IsDigits(r)
    ensures r[0] == '0' ==> n == 0 && r == "0"
    decreases n
  {
    if n < 10 then [DigitChar(n)] else Show(n / 10) + [DigitChar(n % 10)]
  }

  /** Reading back what `Show` writes gives the number again. */
  lemma {:induction false} ParseShow(n: nat)
    ensures Parse(Show(n)) == n
    decreases n
  {
    if n >= 10 {
      var s := Show(n / 10) + [DigitChar(n % 10)];
      assert s[..|s| - 1] == Show(n / 10);
      ParseShow(n / 10);
    }
  }

  /** Writing out what `Parse` reads from canonical text gives the text
      back: `str(int(s)) == s` exactly when `s` has no leading zero. */
  lemma {:induction false} ShowParse(s: string)
    requires Canonical(s)
    ensures Show(Parse(s)) == s
    decreases |s|
  {
    var last := s[|s| - 1];
    assert DigitChar(DigitValue(last)) == last;
    if |s| > 1 {
      var init := s[..|s| - 1];
      assert init[0] == s[0] && init[0] != '0';
      ShowParse(init);
      var n := Parse(s);
      assert n == Parse(init) * 10 + DigitValue(last);
      assert n / 10 == Parse(init) && n % 10 == DigitValue(last);
      assert s == init + [last];
    }
  }
}

=== FILE: ioc.dfy ===
/** The intel accessors of an IOC report: who reported it, the values each
    source attached to it, whether it is predicted, its best ranking, and the
    requests that report it as malicious or benign. The report is the
    decoded JSON object the API returned. */
module Ioc {
  import opened Wrappers
  import opened Json
  import Text
  import opened Seqs

  /** An IOC report: the top-level JSON object. */
  type Intel = map<string, Value>

  /** The namespaced kinds the accessors `categories`, `identifiers`,
      `reasons` and `source_urls` read through `NamespacedValues`. */
  const CategoriesKind := "categories"
  const IdentifiersKind := "identifiers"
  const ReasonsKind := "reasons"
  const SourceUrlsKind := "source_urls"

  /** `reported_by`: the sources that categorised the IOC, i.e. the keys of
      `context['categories']`; none when there is no context. */
  function ReportedBy(intel: Intel): (r: Result<set<string>, PyError>)
    ensures "context" !in intel ==> r == Success({})
    ensures "context" in intel ==>
              (r.Success? <==>
                 intel["context"].Object? && "categories" in intel["context"].fields
                 && intel["context"].fields["categories"].Object?)
    ensures "context" in intel && r.Success? ==>
              r.value == intel["context"].fields["categories"].fields.Keys
    ensures "context" in intel && intel["context"].Object? && "categories" !in intel["context"].fields ==>
              r == Failure(KeyError("categories"))
    ensures "context" in intel && !intel["context"].Object? ==> r == Failure(TypeError)
    ensures "context" in intel && intel["context"].Object? && "categories" in intel["context"].fields ==>
              (!intel["context"].fields["categories"].Object? ==> r == Failure(AttributeError))
  {
    if "context" !in intel then Success({})
    else
      match Index(intel["context"], "categories")
      case Failure(e) => Failure(e)
      case Success(categories) =>
        if categories.Object? then Success(categories.fields.Keys) else Failure(AttributeError)
  }

  /** `has_threat_intel`: some source reported the IOC. */
  function HasThreatIntel(intel: Intel): (r: Result<bool, PyError>)
    ensures r.Failure? <==> ReportedBy(intel).Failure?
    ensures r.Success? ==> (r.value <==> ReportedBy(intel).value != {})
    ensures "context" !in intel ==> r == Success(false)
  {
    match ReportedBy(intel)
    case Failure(e) => Failure(e)
    case Success(sources) => Success(|sources| > 0)
  }

  /** Value `x` is among those source `src` attached under one namespace. */
  ghost predicate Reported(sources: map<string, Value>, src: string, x: Value) {
    src in sources && Iterate(sources[src]).Success? && x in Iterate(sources[src]).value
  }

  /** Every source's entry can be iterated and its values hashed. */
  ghost predicate AllIterable(sources: map<string, Value>) {
    forall src :: src in sources ==> Iterate(sources[src]).Success?
  }

  /** Value `x` was attached by source `src` under `context[kind]`. */
  ghost predicate InContext(intel: Intel, kind: string, src: string, x: Value) {
    && "context" in intel
    && intel["context"].Object?
    && kind in intel["context"].fields
    && intel["context"].fields[kind].Object?
    && Reported(intel["context"].fields[kind].fields, src, x)
  }

  /** Whether the walk down to `context[kind].items()` raises. */
  ghost predicate NamespaceFails(intel: Intel, kind: string) {
    && "context" in intel
    && var ctx := intel["context"];
       || In(kind, ctx).Failure?
       || (In(kind, ctx) == Success(true)
           && !(ctx.Object? && ctx.fields[kind].Object? && AllIterable(ctx.fields[kind].fields)))
  }

  /** The source entries `context[kind].items()` iterates over, `None` when
      `_namespaced_values` returns its initial empty list. */
  function Namespace(intel: Intel, kind: string): (r: Result<Option<map<string, Value>>, PyError>)
    ensures "context" !in intel ==> r == Success(None)
    ensures "context" in intel && In(kind, intel["context"]) == Success(false) ==> r == Success(None)
    ensures r == Success(None) ==> "context" !in intel || In(kind, intel["context"]) == Success(false)
    ensures r.Success? && r.value.Some? ==>
              intel["context"].Object? && kind in intel["context"].fields
              && intel["context"].fields[kind].Object?
              && r.value.value == intel["context"].fields[kind].fields
  {
    if "context" !in intel then Success(None)
    else
      var ctx := intel["context"];
      match In(kind, ctx)
      case Failure(e) => Failure(e)
      case Success(found) =>
        if !found then Success(None)
        else
          match Index(ctx, kind)
          case Failure(e) => Failure(e)
          case Success(sources) =>
            if sources.Object? then Success(Some(sources.fields)) else Failure(AttributeError)
  }

  /** The de-duplicated union of every source's values. */
  method UnionOfSources(sources: map<string, Value>) returns (r: Result<seq<Value>, PyError>)
    ensures r.Success? <==> AllIterable(sources)
    ensures r.Success? ==> NoDuplicates(r.value)
    ensures r.Success? ==> forall x :: x in r.value <==> exists src :: Reported(sources, src, x)
  {
    var pending := sources.Keys;
    var pool: set<Value> := {};
    while pending != {}
      invariant pending <= sources.Keys
      invariant forall src :: src in sources && src !in pending ==> Iterate(sources[src]).Success?
      invariant forall x :: x in pool <==> exists src :: src !in pending && Reported(sources, src, x)
      decreases pending
    {
      var src :| src in pending;
      match Iterate(sources[src]) {
        case Failure(e) =>
          return Failure(e);
        case Success(xs) =>
          pool := pool + xs;
      }
      pending := pending - {src};
    }
    var q := SetToSeq(pool);
    return Success(q);
  }

  /** `_namespaced_values(kind)`: every value any source attached under
      `context[kind]`, each once; empty without a context or without `kind`. */
  method NamespacedValues(intel: Intel, kind: string) returns (r: Result<seq<Value>, PyError>)
    ensures "context" !in intel ==> r == Success([])
    ensures "context" in intel && In(kind, intel["context"]) == Success(false) ==> r == Success([])
    ensures r.Failure? <==> NamespaceFails(intel, kind)
    ensures r.Success? ==> NoDuplicates(r.value)
    ensures r.Success? ==> forall x :: x in r.value <==> exists src :: InContext(intel, kind, src, x)
  {
    match Namespace(intel, kind)
    case Failure(e) =>
      r := Failure(e);
    case Success(None) =>
      r := Success([]);
    case Success(Some(sources)) =>
      r := UnionOfSources(sources);
      forall x, src
        ensures Reported(sources, src, x) <==> InContext(intel, kind, src, x)
      {
      }
  }

  /** The report of the repository's `test_ioc_categories`: one source with
      one category. */
  function OneCategoryIntel(): Intel {
    map["context" := Object(map["categories" := Object(map["source1" := List([Str("category1")])])])]
  }

  /** `categories` of that report is exactly `['category1']`. */
  method OneCategoryExample() returns (r: Result<seq<Value>, PyError>)
    ensures r == Success([Str("category1")])
  {
    var intel := OneCategoryIntel();
    var sources := map["source1" := List([Str("category1")])];
    assert Iterate(sources["source1"]).value == {Str("category1")};
    assert Reported(sources, "source1", Str("category1"));
    r := NamespacedValues(intel, CategoriesKind);
    assert r.Success? by {
      assert intel["context"].fields["categories"].fields == sources;
    }
    var q := r.value;
    forall x
      ensures x in q <==> x == Str("category1")
    {
      if x in q {
        var src :| InContext(intel, CategoriesKind, src, x);
        assert src == "source1";
      } else {
        assert InContext(intel, CategoriesKind, "source1", Str("category1"));
      }
    }
    assert |q| >= 1 by {
      assert Str("category1") in q;
    }
    OnlyElement(q, Str("category1"));
  }

  /** `predicted`: the report holds a non-empty `predictions` entry. */
  function Predicted(intel: Intel): (r: Result<bool, PyError>)
    ensures r.Failure? <==> "predictions" in intel && (intel["predictions"].Bool? || intel["predictions"].Int?)
    ensures r.Success? ==> (r.value <==> "predictions" in intel && Truthy(intel["predictions"]))
  {
    // The `predictions` accessor: the entry, or None when it is absent.
    var predictions := if "predictions" in intel then intel["predictions"] else Null;
    if predictions.Null? then Success(false)
    else
      match Len(predictions)
      case Failure(e) => Failure(e)
      case Success(n) => Success(n > 0)
  }

  /** Whether ranking list `name` passes the `allowed_lists` filter; a
      missing or empty filter lets every list through. */
  predicate Considered(allowed: Option<seq<string>>, name: string) {
    allowed.None? || allowed.value == [] || name in allowed.value
  }

  /** Ranking list `name` takes part in the minimum: it passes the filter
      and its `min` is present and truthy. */
  predicate Contributes(allowed: Option<seq<string>>, name: string, entry: Value) {
    Considered(allowed, name) && entry.Object? && "min" in entry.fields && Truthy(entry.fields["min"])
  }

  /** Ranking list `name` is processed without raising. */
  predicate EntryOk(allowed: Option<seq<string>>, name: string, entry: Value) {
    Considered(allowed, name) ==>
      entry.Object? && (Contributes(allowed, name, entry) ==> ToInt(entry.fields["min"]).Success?)
  }

  /** Ranking list `name` contributes the minimum `m`. */
  ghost predicate RankedAt(rankings: map<string, Value>, allowed: Option<seq<string>>, name: string, m: int) {
    name in rankings && Contributes(allowed, name, rankings[name])
    && ToInt(rankings[name].fields["min"]) == Success(m)
  }

  /** `min_ranking(allowed_lists)`: the least `min` among the ranking lists
      that pass the filter and carry a truthy `min`; `None` when there are
      no rankings or no list contributes. */
  method MinRanking(intel: Intel, allowed: Option<seq<string>>) returns (r: Result<Option<int>, PyError>)
    ensures ("rankings" !in intel || intel["rankings"].Null?) ==> r == Success(None)
    ensures r.Failure? <==>
              "rankings" in intel && !intel["rankings"].Null?
              && (!intel["rankings"].Object?
                  || exists name :: name in intel["rankings"].fields
                                    && !EntryOk(allowed, name, intel["rankings"].fields[name]))
    ensures r.Success? && r.value.Some? ==>
              && "rankings" in intel && intel["rankings"].Object?
              && (exists name :: RankedAt(intel["rankings"].fields, allowed, name, r.value.value))
              && (forall name, m :: RankedAt(intel["rankings"].fields, allowed, name, m) ==> r.value.value <= m)
    ensures r.Success? && r.value.None? && "rankings" in intel && intel["rankings"].Object? ==>
              forall name :: name in intel["rankings"].fields ==>
                !Contributes(allowed, name, intel["rankings"].fields[name])
  {
    if "rankings" !in intel || intel["rankings"].Null? {
      return Success(None);
    }
    var rankings := intel["rankings"];
    if !rankings.Object? {
      return Failure(AttributeError);
    }
    var entries := rankings.fields;
    var pending := entries.Keys;
    var best: Option<int> := None;
    while pending != {}
      invariant pending <= entries.Keys
      invariant forall name :: name in entries && name !in pending ==> EntryOk(allowed, name, entries[name])
      invariant best.Some? ==> exists name :: name !in pending && RankedAt(entries, allowed, name, best.value)
      invariant best.Some? ==>
                  forall name, m :: name !in pending && RankedAt(entries, allowed, name, m) ==> best.value <= m
      invariant best.None? ==>
                  forall name :: name in entries && name !in pending ==> !Contributes(allowed, name, entries[name])
      decreases pending
    {
      var name :| name in pending;
      pending := pending - {name};
      var entry := entries[name];
      if !Considered(allowed, name) {
        continue;
      }
      if !entry.Object? {
        return Failure(AttributeError);
      }
      var listMin := if "min" in entry.fields then entry.fields["min"] else Null;
      if Truthy(listMin) {
        match ToInt(listMin) {
          case Failure(e) =>
            return Failure(e);
          case Success(m) =>
            if best.None? || m < best.value {
              best := Some(m);
            }
        }
      }
    }
    return Success(best);
  }

  /** A request the client would send: `_post_data(path, params, data)`. */
  datatype Request = Post(path: string, params: map<string, Value>, body: Option<Value>)

  /** `'/%ss/%s' % (ioc_type, ioc_id)`: the IOC's resource path. */
  function IocPath(intel: Intel): (r: Result<string, PyError>)
    ensures "type" !in intel ==> r == Failure(KeyError("type"))
    ensures "type" in intel && "id" !in intel ==> r == Failure(KeyError("id"))
    ensures r.Success? <==>
              "type" in intel && "id" in intel && Render(intel["type"]).Success? && Render(intel["id"]).Success?
    ensures r.Success? ==>
              r.value == "/" + Render(intel["type"]).value + "s/" + Render(intel["id"]).value
  {
    if "type" !in intel then Failure(KeyError("type"))
    else if "id" !in intel then Failure(KeyError("id"))
    else
      match (Render(intel["type"]), Render(intel["id"]))
      case (Success(t), Success(i)) => Success("/" + t + "s/" + i)
      case (Failure(e), _) => Failure(e)
      case (_, Failure(e)) => Failure(e)
  }

  /** For a text type and id free of '/', the path has exactly the segments
      "", the pluralised type, and the id. */
  lemma PathSegments(intel: Intel, t: string, id: string)
    requires "type" in intel && intel["type"] == Str(t) && '/' !in t
    requires "id" in intel && intel["id"] == Str(id) && '/' !in id
    ensures IocPath(intel).Success?
    ensures Text.Split(IocPath(intel).value, '/') == ["", t + "s", id]
  {
    var path := IocPath(intel).value;
    assert path == "" + ['/'] + ((t + "s") + ['/'] + id);
    Text.SplitFirst("", '/', (t + "s") + ['/'] + id);
    Text.SplitFirst(t + "s", '/', id);
    Text.SplitNoSep(id, '/');
  }

  /** Adds `key := v` to the payload only when `v` is truthy. */
  function WithOptional(data: map<string, Value>, key: string, v: Value): map<string, Value>
  {
    if Truthy(v) then data[key := v] else data
  }

  /** `record_threat_data(category, reason, feed)`: reports the IOC as
      malicious. The payload travels as the request's query parameters. */
  function RecordThreatData(intel: Intel, category: Value, reason: Value, feed: Value): (r: Result<Request, PyError>)
    ensures r.Failure? <==> IocPath(intel).Failure?
    ensures r.Success? ==> r.value.path == IocPath(intel).value && r.value.body == None
    ensures r.Success? ==>
              "classification" in r.value.params && r.value.params["classification"] == Str("malicious")
    ensures r.Success? ==> r.value.params.Keys <= {"classification", "category", "reason", "feed"}
    ensures r.Success? ==> ("category" in r.value.params <==> Truthy(category))
    ensures r.Success? ==> ("reason" in r.value.params <==> Truthy(reason))
    ensures r.Success? ==> ("feed" in r.value.params <==> Truthy(feed))
    ensures r.Success? && Truthy(category) ==> r.value.params["category"] == category
    ensures r.Success? && Truthy(reason) ==> r.value.params["reason"] == reason
    ensures r.Success? && Truthy(feed) ==> r.value.params["feed"] == feed
  {
    var data := map["classification" := Str("malicious")];
    var data := WithOptional(data, "category", category);
    var data := WithOptional(data, "reason", reason);
    var data := WithOptional(data, "feed", feed);
    match IocPath(intel)
    case Failure(e) => Failure(e)
    case Success(path) => Success(Post(path, data, None))
  }

  /** `mark_as_good(reason, feed)`: reports the IOC as benign. */
  function MarkAsGood(intel: Intel, reason: Value, feed: Value): (r: Result<Request, PyError>)
    ensures r.Failure? <==> IocPath(intel).Failure?
    ensures r.Success? ==> r.value.path == IocPath(intel).value && r.value.body == None
    ensures r.Success? ==>
              "classification" in r.value.params && r.value.params["classification"] == Str("benign")
    ensures r.Success? ==> r.value.params.Keys <= {"classification", "reason", "feed"}
    ensures r.Success? ==> ("reason" in r.value.params <==> Truthy(reason))
    ensures r.Success? ==> ("feed" in r.value.params <==> Truthy(feed))
    ensures r.Success? && Truthy(reason) ==> r.value.params["reason"] == reason
    ensures r.Success? && Truthy(feed) ==> r.value.params["feed"] == feed
  {
    var data := map["classification" := Str("benign")];
    var data := WithOptional(data, "reason", reason);
    var data := WithOptional(data, "feed", feed);
    match IocPath(intel)
    case Failure(e) => Failure(e)
    case Success(path) => Success(Post(path, data, None))
  }
}

=== FILE: ipv4.dfy ===
/** IPv4 addresses as 32-bit integers and as dotted-quad text, the two
    renderings `ipaddress.IPv4Address` converts between. */
module Ipv4 {
  import opened Wrappers
  import Decimal
  import Text

  /** Number of IPv4 addresses: integers 0 .. 2^32 - 1 are valid. */
  const AddressSpace: nat := 0x1_0000_0000

  /** The four bytes of an address, most significant first. */
  datatype Octets = Octets(a: nat, b: nat, c: nat, d: nat)

  predicate ByteSized(o: Octets) {
    o.a < 256 && o.b < 256 && o.c < 256 && o.d < 256
  }

  /** The integer an address's octets stand for (big-endian). */
  function Assemble(o: Octets): nat {
    ((o.a * 256 + o.b) * 256 + o.c) * 256 + o.d
  }

  /** Splits an address integer into its four bytes. */
  function ToOctets(n: nat): (o: Octets)
    requires n < AddressSpace
    ensures ByteSized(o)
    ensures Assemble(o) == n
  {
    var n1 := n / 256;
    var n2 := n1 / 256;
    Octets(n2 / 256, n2 % 256, n1 % 256, n % 256)
  }

  /** `str(IPv4Address(n))`: the four octets in decimal, joined by '.'.
      The text always holds a '.', so it is never all digits. */
  function Dotted(n: nat): (r: string)
    requires n < AddressSpace
    ensures '.' in r && !Decimal.IsDigits(r)
  {
    var o := ToOctets(n);
    var sa := Decimal.Show(o.a);
    var r := sa + "." + Decimal.Show(o.b) + "." + Decimal.Show(o.c) + "." + Decimal.Show(o.d);
    assert r[|sa|] == '.';
    r
  }

  /** The dotted quad of `n` consists of exactly four canonical decimal
      octets (no leading zeros) that assemble to `n`. */
  lemma DottedCanonical(n: nat)
    requires n < AddressSpace
    ensures var parts := Text.Split(Dotted(n), '.');
            && |parts| == 4
            && (forall i :: 0 <= i < 4 ==> Decimal.Canonical(parts[i]) && IsOctetText(parts[i]))
            && Assemble(Octets(Decimal.Parse(parts[0]), Decimal.Parse(parts[1]),
                               Decimal.Parse(parts[2]), Decimal.Parse(parts[3]))) == n
  {
    var o := ToOctets(n);
    Decimal.ParseShow(o.a);
    Decimal.ParseShow(o.b);
    Decimal.ParseShow(o.c);
    Decimal.ParseShow(o.d);
    SplitFour(Decimal.Show(o.a), Decimal.Show(o.b), Decimal.Show(o.c), Decimal.Show(o.d));
  }

  /** Four digit strings joined by '.' split back into those four. */
  lemma SplitFour(sa: string, sb: string, sc: string, sd: string)
    requires Decimal.IsDigits(sa) && Decimal.IsDigits(sb) && Decimal.IsDigits(sc) && Decimal.IsDigits(sd)
    ensures Text.Split(sa + "." + sb + "." + sc + "." + sd, '.') == [sa, sb, sc, sd]
  {
    assert '.' !in sa && '.' !in sb && '.' !in sc && '.' !in sd;
    assert sa + "." + sb + "." + sc + "." + sd == sa + "." + (sb + "." + (sc + "." + sd));
    Text.SplitFirst(sa, '.', sb + "." + (sc + "." + sd));
    Text.SplitFirst(sb, '.', sc + "." + sd);
    Text.SplitFirst(sc, '.', sd);
    Text.SplitNoSep(sd, '.');
  }

  /** Text that is a decimal number no larger than a byte. */
  predicate IsOctetText(t: string) {
    Decimal.IsDigits(t) && Decimal.Parse(t) < 256
  }

  /** Reads dotted-quad text: exactly four '.'-separated decimal octets,
      each in 0..255 (leading zeros tolerated). Returns the address integer
      they assemble to. */
  function ParseDotted(s: string): (r: Option<nat>)
    ensures r.Some? ==> r.value < AddressSpace
    ensures r.Some? ==> '.' in s && !Decimal.IsDigits(s)
  {
    var parts := Text.Split(s, '.');
    if |parts| == 4 && IsOctetText(parts[0]) && IsOctetText(parts[1])
       && IsOctetText(parts[2]) && IsOctetText(parts[3])
    then
      Some(Assemble(Octets(Decimal.Parse(parts[0]), Decimal.Parse(parts[1]),
                           Decimal.Parse(parts[2]), Decimal.Parse(parts[3]))))
    else None
  }

  /** Dotted-quad text names the address it was rendered from. */
  lemma ParseDottedOfDotted(n: nat)
    requires n < AddressSpace
    ensures ParseDotted(Dotted(n)) == Some(n)
  {
    DottedCanonical(n);
  }

  /** Four bytes are recovered from the integer they assemble to. */
  lemma OctetsOfAssemble(o: Octets)
    requires ByteSized(o)
    ensures Assemble(o) < AddressSpace && ToOctets(Assemble(o)) == o
  {
    var n := Assemble(o);
    var n1 := (o.a * 256 + o.b) * 256 + o.c;
    assert n == n1 * 256 + o.d;
    assert n / 256 == n1 && n % 256 == o.d;
    assert n1 / 256 == o.a * 256 + o.b && n1 % 256 == o.c;
  }

  /** `Dotted(n)` is the only dotted quad for `n` whose octets are written
      without leading zeros. */
  lemma DottedUnique(s: string, n: nat)
    requires ParseDotted(s) == Some(n)
    requires forall p :: p in Text.Split(s, '.') ==> Decimal.Canonical(p)
    ensures s == Dotted(n)
  {
    var parts := Text.Split(s, '.');
    var o := Octets(Decimal.Parse(parts[0]), Decimal.Parse(parts[1]),
                    Decimal.Parse(parts[2]), Decimal.Parse(parts[3]));
    OctetsOfAssemble(o);
    assert ToOctets(n) == o;
    assert parts[0] in parts && parts[1] in parts && parts[2] in parts && parts[3] in parts;
    Decimal.ShowParse(parts[0]);
    Decimal.ShowParse(parts[1]);
    Decimal.ShowParse(parts[2]);
    Decimal.ShowParse(parts[3]);
    JoinFour(parts);
    Text.JoinSplit(s, '.');
  }

  lemma JoinFour(parts: seq<string>)
    requires |parts| == 4
    ensures Text.Join(parts, '.') == parts[0] + "." + parts[1] + "." + parts[2] + "." + parts[3]
  {
    assert Text.Join(parts[3..], '.') == parts[3];
    assert parts[2..][1..] == parts[3..];
    assert Text.Join(parts[2..], '.') == parts[2] + "." + parts[3];
    assert parts[1..][1..] == parts[2..];
    assert Text.Join(parts[1..], '.') == parts[1] + "." + (parts[2] + "." + parts[3]);
  }

  /** The dotted quad of an address is its four bytes in decimal. */
  lemma DottedOfOctets(o: Octets)
    requires ByteSized(o)
    ensures Assemble(o) < AddressSpace
    ensures Dotted(Assemble(o)) ==
              Decimal.Show(o.a) + "." + Decimal.Show(o.b) + "." + Decimal.Show(o.c) + "." + Decimal.Show(o.d)
  {
    OctetsOfAssemble(o);
  }
}

=== FILE: json.dfy ===
/** Decoded JSON values and the few Python operations the accessors apply
    to them: truthiness, `in`, `[]`, `len`, `int()` and iteration. */
module Json {
  import opened Wrappers
  import Decimal

  /** A decoded JSON value (floating-point numbers are not modelled). */
  datatype Value =
    | Null
    | Bool(b: bool)
    | Int(i: int)
    | Str(s: string)
    | List(items: seq<Value>)
    | Object(fields: map<string, Value>)

  /** The Python exceptions these operations raise. */
  datatype PyError =
    | KeyError(key: string)
    | TypeError
    | AttributeError
    | ValueError
    | Unrendered  // a list or dict formatted into text; not modelled

  /** Python truthiness: `None`, `False`, `0`, and empty text or containers are false. */
  predicate Truthy(v: Value) {
    match v
    case Null => false
    case Bool(b) => b
    case Int(i) => i != 0
    case Str(s) => s != ""
    case List(items) => items != []
    case Object(fields) => fields != map[]
  }

  /** Whether `needle` occurs in `hay` starting at position `i`. */
  predicate OccursAt(needle: string, hay: string, i: int) {
    0 <= i <= |hay| - |needle| && hay[i..i + |needle|] == needle
  }

  /** Whether `needle` occurs in `hay` as a contiguous piece. */
  predicate IsSubstring(needle: string, hay: string) {
    exists i :: 0 <= i <= |hay| && OccursAt(needle, hay, i)
  }

  /** `key in container` for a text key: dict keys, list elements, or
      substrings; anything else raises `TypeError`. */
  function In(key: string, container: Value): (r: Result<bool, PyError>)
    ensures r.Failure? <==> !(container.Object? || container.List? || container.Str?)
    ensures r.Failure? ==> r.error == TypeError
    ensures container.Object? ==> r == Success(key in container.fields)
  {
    match container
    case Object(fields) => Success(key in fields)
    case List(items) => Success(Str(key) in items)
    case Str(s) => Success(IsSubstring(key, s))
    case _ => Failure(TypeError)
  }

  /** Text that has `key` somewhere inside it contains `key`. */
  lemma InSubstring(before: string, key: string, after: string)
    ensures In(key, Str(before + key + after)) == Success(true)
  {
    var hay := before + key + after;
    assert hay[|before|..|before| + |key|] == key;
    assert OccursAt(key, hay, |before|);
  }

  /** `container[key]` for a text key: only a dict can answer it. */
  function Index(container: Value, key: string): (r: Result<Value, PyError>)
    ensures r.Success? <==> container.Object? && key in container.fields
    ensures r.Success? ==> r.value == container.fields[key]
    ensures container.Object? && key !in container.fields ==> r == Failure(KeyError(key))
  {
    match container
    case Object(fields) => if key in fields then Success(fields[key]) else Failure(KeyError(key))
    case _ => Failure(TypeError)
  }

  /** `len(v)`: defined for text, lists and dicts. */
  function Len(v: Value): (r: Result<nat, PyError>)
    ensures r.Success? <==> (v.Str? || v.List? || v.Object?)
    ensures r.Success? ==> (r.value > 0 <==> Truthy(v))
  {
    match v
    case Str(s) => Success(|s|)
    case List(items) => Success(|items|)
    case Object(fields) => Success(|fields|)
    case _ => Failure(TypeError)
  }

  /** The ASCII characters `int()` skips around a number: space and '\t'
      through '\r'. The separators 0x1C through 0x1F, which `str.strip()`
      would drop, are not among them. */
  predicate IsSpace(c: char) {
    c == ' ' || 9 <= c as int <= 13
  }

  /** The leading whitespace `int()` skips. */
  function StripStart(s: string): (r: string)
    ensures |r| <= |s| && r == s[|s| - |r|..]
    ensures forall i :: 0 <= i < |s| - |r| ==> IsSpace(s[i])
    ensures |r| > 0 ==> !IsSpace(r[0])
    decreases |s|
  {
    if |s| > 0 && IsSpace(s[0]) then
      var r := StripStart(s[1..]);
      assert s[1..][|s| - 1 - |r|..] == s[|s| - |r|..];
      r
    else s
  }

  /** The trailing whitespace `int()` skips. */
  function StripEnd(s: string): (r: string)
    ensures |r| <= |s| && r == s[..|r|]
    ensures forall i :: |r| <= i < |s| ==> IsSpace(s[i])
    ensures |r| > 0 ==> !IsSpace(r[|r| - 1])
    decreases |s|
  {
    if |s| > 0 && IsSpace(s[|s| - 1]) then
      var r := StripEnd(s[..|s| - 1]);
      assert s[..|s| - 1][..|r|] == s[..|r|];
      r
    else s
  }

  /** The text `int()` reads once the surrounding whitespace is skipped. */
  function Strip(s: string): string {
    StripEnd(StripStart(s))
  }

  /** Every character is a digit or a '_'. */
  predicate DigitsOrSeparators(s: string) {
    forall i :: 0 <= i < |s| ==> Decimal.IsDigit(s[i]) || s[i] == '_'
  }

  /** Digits with single '_' separators between them, as `int()` accepts:
      "1_000" but not "_1", "1_" or "1__0". */
  predicate IsDigitGroups(s: string) {
    && |s| > 0
    && DigitsOrSeparators(s)
    && Decimal.IsDigit(s[0]) && Decimal.IsDigit(s[|s| - 1])
    && forall i :: 0 <= i < |s| - 1 ==> !(s[i] == '_' && s[i + 1] == '_')
  }

  /** The digits of `s` with the '_' separators taken out. */
  function DropSeparators(s: string): (r: string)
    ensures '_' !in s ==> r == s
    ensures DigitsOrSeparators(s) ==> forall i :: 0 <= i < |r| ==> Decimal.IsDigit(r[i])
    ensures |s| > 0 && s[0] != '_' ==> |r| > 0
    decreases |s|
  {
    if |s| == 0 then ""
    else
      var rest := DropSeparators(s[1..]);
      assert DigitsOrSeparators(s) ==> DigitsOrSeparators(s[1..]) by {
        if DigitsOrSeparators(s) {
          forall i | 0 <= i < |s| - 1
            ensures Decimal.IsDigit(s[1..][i]) || s[1..][i] == '_'
          {
            assert s[1..][i] == s[i + 1];
          }
        }
      }
      assert '_' !in s ==> '_' !in s[1..] && [s[0]] + s[1..] == s;
      if s[0] == '_' then rest else [s[0]] + rest
  }

  /** The number `int()` reads from digit groups. */
  function GroupsValue(s: string): nat
    requires IsDigitGroups(s)
  {
    Decimal.Parse(DropSeparators(s))
  }

  /** Stripped text `int()` accepts: an optional sign, then digits in
      '_'-separated groups. */
  predicate IsSignedGroups(t: string) {
    if |t| > 0 && (t[0] == '+' || t[0] == '-') then IsDigitGroups(t[1..]) else IsDigitGroups(t)
  }

  /** Text `int()` accepts: the above, with surrounding whitespace. */
  predicate IsIntText(s: string) {
    IsSignedGroups(Strip(s))
  }

  /** The number stripped text stands for. */
  function SignedValue(t: string): (r: Result<int, PyError>)
    ensures r.Success? <==> IsSignedGroups(t)
    ensures r.Failure? ==> r.error == ValueError
  {
    if |t| > 0 && t[0] == '-' && IsDigitGroups(t[1..]) then Success(-(GroupsValue(t[1..]) as int))
    else if |t| > 0 && t[0] == '+' && IsDigitGroups(t[1..]) then Success(GroupsValue(t[1..]))
    else if IsDigitGroups(t) then Success(GroupsValue(t))
    else Failure(ValueError)
  }

  /** `int(s)` for text. */
  function TextToInt(s: string): (r: Result<int, PyError>)
    ensures r.Success? <==> IsIntText(s)
    ensures r.Failure? ==> r.error == ValueError
  {
    SignedValue(Strip(s))
  }

  /** `int(v)` for a JSON value. */
  function ToInt(v: Value): Result<int, PyError>
  {
    match v
    case Int(i) => Success(i)
    case Bool(b) => Success(if b then 1 else 0)
    case Str(s) => TextToInt(s)
    case _ => Failure(TypeError)
  }

  /** Whitespace around a number is ignored: `int(" 5\n") == int("5")`. */
  lemma StripSurrounding(pre: string, s: string, post: string)
    requires forall i :: 0 <= i < |pre| ==> IsSpace(pre[i])
    requires forall i :: 0 <= i < |post| ==> IsSpace(post[i])
    requires |s| > 0 && !IsSpace(s[0]) && !IsSpace(s[|s| - 1])
    ensures Strip(pre + s + post) == s
    ensures TextToInt(pre + s + post) == TextToInt(s)
  {
    var text := pre + s + post;
    assert text == pre + (s + post);
    StripStartSpaces(pre, s + post);
    assert StripStart(text) == s + post;
    StripEndSpaces(s, post);
    assert Strip(text) == s;
    assert StripStart(s) == s && StripEnd(s) == s;
    SameStripSameInt(text, s);
  }

  /** `int()` only looks at the stripped text. */
  lemma SameStripSameInt(a: string, b: string)
    requires Strip(a) == Strip(b)
    ensures TextToInt(a) == TextToInt(b)
  {
  }

  lemma {:induction false} StripStartSpaces(pre: string, rest: string)
    requires forall i :: 0 <= i < |pre| ==> IsSpace(pre[i])
    requires |rest| > 0 && !IsSpace(rest[0])
    ensures StripStart(pre + rest) == rest
    decreases |pre|
  {
    if |pre| > 0 {
      assert (pre + rest)[1..] == pre[1..] + rest;
      StripStartSpaces(pre[1..], rest);
    }
  }

  lemma {:induction false} StripEndSpaces(s: string, post: string)
    requires forall i :: 0 <= i < |post| ==> IsSpace(post[i])
    requires |s| > 0 && !IsSpace(s[|s| - 1])
    ensures StripEnd(s + post) == s
    decreases |post|
  {
    if |post| > 0 {
      var init := post[..|post| - 1];
      assert (s + post)[..|s + post| - 1] == s + init;
      StripEndSpaces(s, init);
    }
  }

  /** `int(str(i)) == i`: the text `str()` writes for an integer reads back
      as that integer. */
  lemma IntOfRendered(i: int)
    ensures Render(Int(i)).Success? && TextToInt(Render(Int(i)).value) == Success(i)
  {
    if i < 0 {
      IntOfRenderedNegative(-i);
    } else {
      IntOfRenderedNatural(i);
    }
  }

  /** `int('%s' % v) == int(v)` for an integer `v`: converting the text an
      integer renders to gives the same number as converting the integer. */
  lemma ToIntOfRendered(v: Value)
    requires v.Int?
    ensures Render(v).Success? && ToInt(Str(Render(v).value)) == ToInt(v)
  {
    IntOfRendered(v.i);
  }

  lemma IntOfRenderedNatural(k: nat)
    ensures TextToInt(Render(Int(k)).value) == Success(k)
  {
    var digits := Decimal.Show(k);
    assert Render(Int(k)).value == digits;
    Decimal.ParseShow(k);
    IntOfDigits(digits);
  }

  lemma IntOfRenderedNegative(k: nat)
    requires k > 0
    ensures TextToInt(Render(Int(-(k as int))).value) == Success(-(k as int))
  {
    var digits := Decimal.Show(k);
    assert Render(Int(-(k as int))).value == "-" + digits;
    Decimal.ParseShow(k);
    IntOfNegatedDigits(digits);
  }

  /** Plain digits form one group, worth the number they spell. */
  lemma DigitsAreGroups(digits: string)
    requires Decimal.IsDigits(digits)
    ensures IsDigitGroups(digits) && GroupsValue(digits) == Decimal.Parse(digits)
  {
    assert '_' !in digits;
  }

  /** Plain digits read as their value. */
  lemma IntOfDigits(digits: string)
    requires Decimal.IsDigits(digits)
    ensures TextToInt(digits) == Success(Decimal.Parse(digits))
  {
    DigitsAreGroups(digits);
    NothingToStrip(digits);
    assert digits[0] != '-' && digits[0] != '+';
  }

  /** Digits after a '-' read as the negated value. */
  lemma IntOfNegatedDigits(digits: string)
    requires Decimal.IsDigits(digits)
    ensures TextToInt("-" + digits) == Success(-(Decimal.Parse(digits) as int))
  {
    NegatedNothingToStrip(digits);
    NegatedGroups(digits);
  }

  lemma NegatedNothingToStrip(digits: string)
    requires Decimal.IsDigits(digits)
    ensures Strip("-" + digits) == "-" + digits
  {
    var t := "-" + digits;
    assert t[|t| - 1] == digits[|digits| - 1];
    NothingToStrip(t);
  }

  /** A '-' before digits negates their value. */
  lemma NegatedGroups(digits: string)
    requires Decimal.IsDigits(digits)
    ensures SignedValue("-" + digits) == Success(-(Decimal.Parse(digits) as int))
  {
    var t := "-" + digits;
    assert t[1..] == digits;
    DigitsAreGroups(t[1..]);
  }

  lemma NothingToStrip(s: string)
    requires |s| > 0 && !IsSpace(s[0]) && !IsSpace(s[|s| - 1])
    ensures Strip(s) == s
  {
    assert StripStart(s) == s;
  }

  /** Spaces around a ranking are ignored: `int(" 5\n") == 5`. */
  lemma SpacedDigits(d: string)
    requires Decimal.IsDigits(d)
    ensures ToInt(Str(" " + d + "\n")) == Success(Decimal.Parse(d))
  {
    StripSurrounding(" ", d, "\n");
    IntOfDigits(d);
  }

  /** A '_' between two runs of digits is ignored: `int("1_000") == int("1000")`. */
  lemma SeparatorIgnored(a: string, b: string)
    requires Decimal.IsDigits(a) && Decimal.IsDigits(b)
    ensures TextToInt(a + "_" + b) == TextToInt(a + b)
  {
    var t := a + "_" + b;
    SeparatedGroups(a, b);
    assert t[0] == a[0] && t[|t| - 1] == b[|b| - 1];
    NothingToStrip(t);
    assert SignedValue(t) == Success(Decimal.Parse(a + b));
    assert Decimal.IsDigits(a + b) by {
      forall i | 0 <= i < |a + b|
        ensures Decimal.IsDigit((a + b)[i])
      {
        if i >= |a| {
          assert (a + b)[i] == b[i - |a|];
        }
      }
    }
    IntOfDigits(a + b);
  }

  /** Digits, one '_', digits: well-formed groups spelling the digits. */
  lemma SeparatedGroups(a: string, b: string)
    requires Decimal.IsDigits(a) && Decimal.IsDigits(b)
    ensures IsDigitGroups(a + "_" + b)
    ensures DropSeparators(a + "_" + b) == a + b
  {
    var t := a + "_" + b;
    forall i | 0 <= i < |t|
      ensures Decimal.IsDigit(t[i]) || t[i] == '_'
      ensures t[i] == '_' ==> i == |a|
    {
      if i > |a| {
        assert t[i] == b[i - |a| - 1];
      }
    }
    assert DigitsOrSeparators(t);
    SeparatorDropped(a, b);
  }

  lemma SeparatorDropped(a: string, b: string)
    requires Decimal.IsDigits(a) && Decimal.IsDigits(b)
    ensures DropSeparators(a + "_" + b) == a + b
  {
    assert '_' !in a && DropSeparators(a) == a;
    assert '_' !in b && DropSeparators(b) == b;
    assert DropSeparators("_") == "" by {
      assert "_"[1..] == "";
    }
    DropSeparatorsAppend(a, "_");
    assert DropSeparators(a + "_") == a by {
      assert a + "" == a;
    }
    DropSeparatorsAppend(a + "_", b);
  }

  /** Dropping separators works piece by piece. */
  lemma {:induction false} DropSeparatorsAppend(x: string, y: string)
    ensures DropSeparators(x + y) == DropSeparators(x) + DropSeparators(y)
    decreases |x|
  {
    if |x| == 0 {
      assert x + y == y;
    } else {
      assert (x + y)[1..] == x[1..] + y;
      DropSeparatorsAppend(x[1..], y);
    }
  }

  /** Two separators in a row are rejected: `int("1__0")` raises. */
  lemma DoubleSeparatorRejected(a: string, b: string)
    requires Decimal.IsDigits(a) && Decimal.IsDigits(b)
    ensures TextToInt(a + "__" + b) == Failure(ValueError)
  {
    var t := a + "__" + b;
    assert t[0] == a[0] && t[|t| - 1] == b[|b| - 1];
    NothingToStrip(t);
    assert t[|a|] == '_' && t[|a| + 1] == '_';
    assert !IsDigitGroups(t);
  }

  /** A leading separator is rejected: `int("_1")` raises, whatever follows. */
  lemma LeadingSeparatorRejected(s: string)
    ensures TextToInt("_" + s) == Failure(ValueError)
  {
    var t := "_" + s;
    StripStartSpaces("", t);
    assert "" + t == t;
    var u := Strip(t);
    assert |u| > 0 && u[0] == '_';
  }

  /** An ASCII separator 0x1C to 0x1F is not whitespace to `int()`: in front
      of digits it makes the conversion fail. */
  lemma SeparatorCharRejected(c: char, digits: string)
    requires 28 <= c as int <= 31 && Decimal.IsDigits(digits)
    ensures TextToInt([c] + digits) == Failure(ValueError)
  {
    var t := [c] + digits;
    assert t[|t| - 1] == digits[|digits| - 1];
    NothingToStrip(t);
    assert t[0] == c;
  }

  /** A value Python can put in a set: lists and dicts cannot. */
  predicate Hashable(v: Value) {
    !(v.List? || v.Object?)
  }

  /** The elements `for x in v` yields, gathered as a set: list elements,
      one-character texts, or dict keys. Anything else raises `TypeError`,
      and so does collecting an element that cannot be hashed. */
  function Iterate(v: Value): (r: Result<set<Value>, PyError>)
    ensures r.Success? ==> forall x :: x in r.value ==> Hashable(x)
    ensures v.List? ==> (r.Success? <==> forall i :: 0 <= i < |v.items| ==> Hashable(v.items[i]))
    ensures v.List? && r.Success? ==> forall x :: x in r.value <==> x in v.items
    ensures v.Object? ==> r == Success(set k | k in v.fields :: Str(k))
  {
    match v
    case List(items) =>
      if forall i :: 0 <= i < |items| ==> Hashable(items[i]) then Success(set x | x in items) else Failure(TypeError)
    case Str(s) => Success(set c | c in s :: Str([c]))
    case Object(fields) => Success(set k | k in fields :: Str(k))
    case _ => Failure(TypeError)
  }

  /** `str(v)` for the scalars a path is formatted from. */
  function Render(v: Value): (r: Result<string, PyError>)
    ensures v.Str? ==> r == Success(v.s)
    ensures r.Failure? <==> (v.List? || v.Object?)
  {
    match v
    case Null => Success("None")
    case Bool(b) => Success(if b then "True" else "False")
    case Int(i) => Success(if i < 0 then "-" + Decimal.Show(-i) else Decimal.Show(i))
    case Str(s) => Success(s)
    case _ => Failure(Unrendered)
  }
}

=== FILE: seqs.dfy ===
/** Sequences that list a set: each element once, in some order. */
module Seqs {

  ghost predicate NoDuplicates<T>(q: seq<T>) {
    forall i, j :: 0 <= i < j < |q| ==> q[i] != q[j]
  }

  /** Lists a finite set, each element once, in some order (Python's set order is unspecified). */
  method SetToSeq<T>(s: set<T>) returns (q: seq<T>)
    ensures NoDuplicates(q)
    ensures forall x :: x in q <==> x in s
  {
    q := [];
    var rest := s;
    while rest != {}
      invariant rest <= s
      invariant NoDuplicates(q)
      invariant forall x :: x in q <==> x in s && x !in rest
      decreases rest
    {
      var x :| x in rest;
      q := q + [x];
      rest := rest - {x};
    }
  }

  /** A duplicate-free sequence whose only member is `v` is `[v]`. */
  lemma OnlyElement<T>(q: seq<T>, v: T)
    requires NoDuplicates(q)
    requires forall x :: x in q <==> x == v
    ensures q == [v]
  {
    assert v in q;
    assert q[0] in q;
    if |q| > 1 {
      assert q[1] in q by {
        assert q[1] == q[1..][0];
      }
      assert false;
    }
  }
}

=== FILE: text.dfy ===
/** Text helpers with Python's meaning: `split`, `join`, `startswith`,
    `endswith`, `replace`, and `posixpath`'s `basename` and `join`. */
module Text {

  /** `s.split(sep)`: the pieces between separators, at least one. */
  function Split(s: string, sep: char): (parts: seq<string>)
    ensures |parts| >= 1
    ensures sep !in s ==> |parts| == 1
    decreases |s|
  {
    if |s| == 0 then [""]
    else
      var rest := Split(s[1..], sep);
      if s[0] == sep then [""] + rest else [[s[0]] + rest[0]] + rest[1..]
  }

  /** Splitting text free of the separator yields that text alone. */
  lemma {:induction false} SplitNoSep(a: string, sep: char)
    requires sep !in a
    ensures Split(a, sep) == [a]
    decreases |a|
  {
    if |a| > 0 {
      SplitNoSep(a[1..], sep);
      assert [a[0]] + a[1..] == a;
    }
  }

  /** A separator-free prefix followed by the separator is split off first. */
  lemma {:induction false} SplitFirst(a: string, sep: char, b: string)
    requires sep !in a
    ensures Split(a + [sep] + b, sep) == [a] + Split(b, sep)
    decreases |a|
  {
    var s := a + [sep] + b;
    if |a| == 0 {
      assert s[1..] == b;
    } else {
      assert s[1..] == a[1..] + [sep] + b;
      SplitFirst(a[1..], sep, b);
      assert [a[0]] + a[1..] == a;
    }
  }

  /** `sep.join(parts)`. */
  function Join(parts: seq<string>, sep: char): string
    decreases |parts|
  {
    if |parts| == 0 then ""
    else if |parts| == 1 then parts[0]
    else parts[0] + [sep] + Join(parts[1..], sep)
  }

  /** Joining separator-free pieces and splitting again gives the pieces
      back (an empty list joins to "", which splits to [""]). */
  lemma {:induction false} SplitJoin(parts: seq<string>, sep: char)
    requires |parts| > 0
    requires forall i :: 0 <= i < |parts| ==> sep !in parts[i]
    ensures Split(Join(parts, sep), sep) == parts
    decreases |parts|
  {
    if |parts| == 1 {
      SplitNoSep(parts[0], sep);
    } else {
      SplitFirst(parts[0], sep, Join(parts[1..], sep));
      SplitJoin(parts[1..], sep);
      assert [parts[0]] + parts[1..] == parts;
    }
  }

  /** Splitting and joining again gives the text back. */
  lemma {:induction false} JoinSplit(s: string, sep: char)
    ensures Join(Split(s, sep), sep) == s
    decreases |s|
  {
    if |s| > 0 {
      var rest := Split(s[1..], sep);
      JoinSplit(s[1..], sep);
      if s[0] == sep {
        assert Join([""] + rest, sep) == "" + [sep] + Join(rest, sep) by {
          assert ([""] + rest)[1..] == rest;
        }
      } else if |rest| == 1 {
        assert [s[0]] + s[1..] == s;
      } else {
        var parts := [[s[0]] + rest[0]] + rest[1..];
        assert parts[1..] == rest[1..];
        assert Join(rest, sep) == rest[0] + [sep] + Join(rest[1..], sep);
        assert [s[0]] + s[1..] == s;
      }
    }
  }

  predicate StartsWith(s: string, prefix: string) {
    |prefix| <= |s| && s[..|prefix|] == prefix
  }

  predicate EndsWith(s: string, suffix: string) {
    |suffix| <= |s| && s[|s| - |suffix|..] == suffix
  }

  /** `s.replace(from, to)` for single characters. */
  function ReplaceChar(s: string, from: char, to: char): (r: string)
    ensures |r| == |s|
    ensures forall i :: 0 <= i < |s| ==> r[i] == (if s[i] == from then to else s[i])
    ensures from != to ==> from !in r
  {
    seq(|s|, i requires 0 <= i < |s| => if s[i] == from then to else s[i])
  }

  /** `posixpath.basename(s)`: the text after the last '/', or all of `s`
      when it has none. */
  function Basename(s: string): (r: string)
    ensures '/' !in r
    ensures |r| <= |s| && r == s[|s| - |r|..]
    ensures |r| == |s| || s[|s| - |r| - 1] == '/'
    decreases |s|
  {
    if |s| == 0 || s[|s| - 1] == '/' then ""
    else Basename(s[..|s| - 1]) + [s[|s| - 1]]
  }

  /** Text without '/' is its own basename. */
  lemma {:induction false} BasenameOfName(f: string)
    requires '/' !in f
    ensures Basename(f) == f
    decreases |f|
  {
    if |f| > 0 {
      var init, last := f[..|f| - 1], f[|f| - 1];
      assert f == init + [last];
      assert last != '/' && '/' !in init;
      assert Basename(f) == Basename(init) + [last];
      BasenameOfName(init);
    }
  }

  /** The basename of `a + "/" + b` is the basename of `b`. */
  lemma {:induction false} BasenameAfterSlash(a: string, b: string)
    ensures Basename(a + "/" + b) == Basename(b)
    decreases |b|
  {
    var s := a + "/" + b;
    if |b| > 0 && b[|b| - 1] != '/' {
      var init := b[..|b| - 1];
      assert s[..|s| - 1] == a + "/" + init;
      BasenameAfterSlash(a, init);
    }
  }

  /** `posixpath.join(a, b)` for two parts. */
  function PathJoin(a: string, b: string): (r: string)
    ensures StartsWith(b, "/") ==> r == b
    ensures !StartsWith(b, "/") ==> (r == a + b || r == a + "/" + b) && StartsWith(r, a)
  {
    if StartsWith(b, "/") then b
    else if a == "" || EndsWith(a, "/") then a + b
    else a + "/" + b
  }

  /** Joining a directory with a '/'-free name puts a file directly inside
      it: the name is the basename of the result, and what precedes it is
      the directory, with a '/' added when the directory needs one. */
  lemma PathJoinName(dir: string, name: string)
    requires '/' !in name
    ensures Basename(PathJoin(dir, name)) == name
    ensures var r := PathJoin(dir, name);
            r[..|r| - |name|] == (if dir == "" || EndsWith(dir, "/") then dir else dir + "/")
  {
    assert !StartsWith(name, "/") by {
      if |name| > 0 {
        assert name[0] in name;
      }
    }
    BasenameOfName(name);
    if dir == "" {
      assert PathJoin(dir, name) == name;
    } else if EndsWith(dir, "/") {
      var d0 := dir[..|dir| - 1];
      assert dir == d0 + "/";
      SlashJoinName(d0, name);
    } else {
      SlashJoinName(dir, name);
    }
  }

  lemma SlashJoinName(d: string, name: string)
    requires '/' !in name
    ensures Basename(d + "/" + name) == name
  {
    BasenameAfterSlash(d, name);
    BasenameOfName(name);
  }
}

=== FILE: wrappers.dfy ===
/** Optional values and results with an error, shared by every module. */
module Wrappers {

  /** A value that may be absent; Python's `None` is `None` here. */
  datatype Option<+T> = None | Some(value: T)

  /** The outcome of an operation that may raise: `Failure` carries the exception kind. */
  datatype Result<+R, +E> = Success(value: R) | Failure(error: E)
}
